=== FILE: README.md ===
# Energy dashboard: the mock data service and the chart geometry

This project models the computational core of a small energy-monitoring
dashboard and proves properties of it in Dafny.
To verify it, pass every file to Dafny at once: `dafny verify *.dfy`.

The first part is the mock data service in `src/services/mockApi.js`:
- the period table (how many readings a period has, and how many hours apart);
- the reading generator, with its clamped consumption and random device and location picks;
- the statistics aggregator (total, average, peak, trend, savings);
- the anomaly sampler;
- the fixed suggestion catalogue.

The second part is the pure arithmetic inside the four chart components:
- the donut chart's per-device grouping, percentages, cumulative arc angles, large-arc flag and palette colours;
- the line and area charts' value scale, `getY`, x-coordinates, SVG path structure, shaded region and label thinning;
- the bar chart's heights relative to the peak and its label thinning.

Modelling choices:
- A JavaScript number is `JsNumber.JsNum`: an exact real, NaN, or a signed infinity. The source divides by zero in several edge cases and then compares the result. These include an empty batch, a one-element batch in the trend split, a flat scale, a lone chart point, and a zero donut total. The NaN and infinity cases are modelled, not excluded.
- Each `Math.random()` call is an explicit draw in [0, 1), passed in as a parameter (`Generator.ReadingDraws`, `Anomalies.AnomalyDraws`).
- The `Math.sin` term of the generator is passed in as `wave`.
- A timestamp is a whole number of hours on a fixed time line. `generateTimestamp(h, base)` is the hour `h` before `base`.
- An SVG path string is kept as its token list (`M`, `L`, `Z`, one token per `x,y` pair). `Plot.Vertices` reads the coordinate pairs back.
- The donut's `deviceConsumption` object is a sequence of entries in first-insertion order. This is the order `Object.entries` gives for non-numeric string keys such as the device names.

`calculateStats` is modelled as a function of the batch's consumption column
(`Energy.Consumptions`), which is the only part of a reading it reads. It has
no guard for short batches:
- An empty batch is accepted; it gives a NaN average and savings and a peak of -Infinity.
- For a single reading, the older-half mean is `0 / 0`. Both comparisons are then false, so the trend stays "stable" (`Statistics.SingleReadingIsStable`).

## Model

| member | source | states |
|---|---|---|
| Energy.PeriodOf | src/services/mockApi.js:13-33 | each of "daily", "weekly", "monthly", "yearly" selects its own case of the switch and no other string does; everything else reaches the default branch |
| Energy.ShapeOf | src/services/mockApi.js:13-33 | the `dataPoints` and `hoursPerPoint` the switch assigns are both positive; the values per period are stated in Energy.PeriodTable |
| Energy.PeriodTable | src/services/mockApi.js:13-33 | daily is 24 points 1 h apart, weekly 7 points 24 h apart, monthly 30 points 24 h apart, yearly 12 points 720 h apart, and any other period name falls back to 24 points 1 h apart |
| Energy.GenerateTimestamp | src/services/mockApi.js:1-5 | the timestamp lies at or before the base instant exactly when the offset is not negative |
| Energy.TimestampAntitone | src/services/mockApi.js:1-5 | a larger offset gives a strictly earlier timestamp, and offset 0 gives the base instant itself |
| Energy.AtMostFiveDevices | src/services/mockApi.js:8 | no set of device types has more members than the five-entry `devices` list |
| Energy.Consumptions | src/services/mockApi.js:52 | defines `data.map(d => d.consumption)`; the charts plot it and Statistics.CalculateStats reads only it |
| Energy.Predictions | src/components/LineChart.jsx:20 | defines `data.map(d => d.prediction)`; LineChart.ColumnsWithinScale and LineChart.PredictionLineInViewport state how it is plotted |
| Decimal.ReadShow | src/services/mockApi.js:41 | the decimal numeral a template literal writes for `i` reads back as `i` |
| Decimal.PrefixedShowInjective | src/services/mockApi.js:41 | two ids built as the same prefix followed by a numeral are equal only for equal numbers |
| Generator.Pick | src/services/mockApi.js:45-46 | `Math.floor(r * k)` of a draw in [0, 1) is a valid index below `k` and is the floor of `r * k` |
| Generator.ClampAtZero | src/services/mockApi.js:43 | `Math.max(0, x)` is non-negative, at least `x`, and either `x` or 0 |
| Generator.EnergyId | src/services/mockApi.js:41 | defines `energy-${i}`; Generator.IdsDistinct states that distinct readings get distinct ids |
| Generator.MakeReading | src/services/mockApi.js:35-47 | a reading's stored consumption is never negative, and its device and location are the entries its own device and location draws pick |
| Generator.PickedDevice | src/services/mockApi.js:45 | defines `devices[Math.floor(Math.random() * devices.length)]`; Generator.Pick states that the index is the floor and in range |
| Generator.PickedLocation | src/services/mockApi.js:46 | defines `locations[Math.floor(Math.random() * locations.length)]`; Generator.Pick states that the index is the floor and in range |
| Generator.GenerateEnergyData | src/services/mockApi.js:35-48 | a batch has exactly `dataPoints` readings; reading `i` has id `energy-i`, non-negative consumption, the device and location its own draws pick, and is built from its own draws |
| Generator.ReadingHour | src/services/mockApi.js:42 | unfolds the `timestamp` field of Generator.MakeReading: reading `i` lies `(dataPoints - i) * hoursPerPoint` hours before the base; the ordering this gives is stated in Generator.OldestFirst |
| Generator.BatchHour | src/services/mockApi.js:42 | the same hour for reading `i` of a whole batch; Generator.OldestFirst builds on it |
| Generator.OldestFirst | src/services/mockApi.js:35-42 | timestamps strictly increase along the batch; the first is a whole span before the base and the last `hoursPerPoint` before it |
| Generator.IdsDistinct | src/services/mockApi.js:41 | no two readings of a batch share an id |
| Generator.BaseConsumption | src/services/mockApi.js:36 | defines `baseConsumption` from the period and one draw; its range is stated in Generator.BaseConsumptionRange |
| Generator.RawConsumption | src/services/mockApi.js:37-38 | defines the unclamped `consumption` as base plus sine term plus noise; its bounds are stated in Generator.RawWithinBase |
| Generator.BaseConsumptionRange | src/services/mockApi.js:36 | the base level is 3000 for yearly, 1500 for monthly, and otherwise lies in [50, 150) |
| Generator.RawWithinBase | src/services/mockApi.js:37-38 | with a sine value in [-1, 1] the unclamped consumption lies in [0.6, 1.4) times the base level |
| Generator.PredictionNearRaw | src/services/mockApi.js:44 | the prediction lies in [0.97, 1.07) times a positive consumption |
| Generator.ClampInactive | src/services/mockApi.js:36-44 | with a sine value in [-1, 1] the zero clamp never changes the consumption, which stays within [0.6, 1.4) of the base, and the prediction stays within [0.97, 1.07) of the consumption |
| Series.Sum | src/services/mockApi.js:53 | defines the `reduce((sum, val) => sum + val, 0)` total; Statistics.CalculateStats states that `totalConsumption` is this sum and DonutChart.AccumulateTotal relates it to the grouping |
| Statistics.Mean | src/services/mockApi.js:54 | the mean of a non-empty batch is the sum over the count; an empty batch gives NaN |
| Statistics.HalfPoint | src/services/mockApi.js:57 | the split point is at most `n` and leaves a recent half equal to the older half or one longer |
| Statistics.CalculateStats | src/services/mockApi.js:51-71 | total is the sum; for a non-empty batch the average is total over count, the peak is finite, bounds every value and is one of them, and savings are 15% of the average; an empty batch gives NaN average and savings, peak -Infinity and trend "stable" |
| Statistics.AvgAtMostPeak | src/services/mockApi.js:53-55 | the average never exceeds the peak |
| Statistics.RecentAvg | src/services/mockApi.js:58 | defines the mean from the half point on; Statistics.TrendRule and Statistics.SingleReadingIsStable state its value |
| Statistics.OlderAvg | src/services/mockApi.js:59 | defines the mean before the half point; Statistics.TrendRule states it is finite for two or more readings and Statistics.SingleReadingIsStable that it is NaN for one |
| Statistics.Classify | src/services/mockApi.js:61-63 | defines the if/else-if choice of trend from the two half means; its meaning is stated in Statistics.TrendRule |
| Statistics.TrendRule | src/services/mockApi.js:57-63 | for two or more readings both half means are finite; the trend is "up" exactly when the recent mean exceeds 1.1 times the older, and "down" exactly when it is not "up" and the recent mean is below 0.9 times the older |
| Statistics.DownRuleNonNegative | src/services/mockApi.js:61-63 | for non-negative data the trend is "down" exactly when the recent mean is below 0.9 times the older |
| Statistics.SingleReadingIsStable | src/services/mockApi.js:57-63 | for one reading the older mean is NaN, the recent mean is the reading itself, and the trend is "stable" |
| Statistics.MeanOfConstant | src/services/mockApi.js:58-59 | the mean of a non-empty constant slice is that constant |
| Statistics.ConstantIsStable | src/services/mockApi.js:57-63 | a non-empty constant non-negative batch has trend "stable" |
| Statistics.ConstantNegativeIsUp | src/services/mockApi.js:61-63 | a constant negative batch of two or more readings reads as "up", because the thresholds scale a negative mean the wrong way |
| Statistics.ThirtyPercentRiseIsUp | src/services/mockApi.js:57-63 | an older half of 100s and a recent half of 130s gives trend "up" |
| Anomalies.MaxHoursBack | src/services/mockApi.js:79-95 | every period's window is positive |
| Anomalies.MaxHoursBackTable | src/services/mockApi.js:79-95 | the window is 24, 168, 720 or 8760 hours for daily, weekly, monthly or yearly, and 24 for any other name |
| Anomalies.WindowMatchesReadings | src/services/mockApi.js:79-95 | except for yearly, the window equals the span of that period's readings; the yearly window is 120 hours longer |
| Anomalies.Describe | src/services/mockApi.js:102 | defines the description text naming a location; Anomalies.DescribeInjective states that the text determines the location |
| Anomalies.DescribeInjective | src/services/mockApi.js:102 | the description determines the location it names |
| Anomalies.AnomalyId | src/services/mockApi.js:98 | defines `anomaly-${i}`; Anomalies.AnomalyIdsDistinct states that the five ids are distinct |
| Anomalies.MakeAnomaly | src/services/mockApi.js:97-104 | a record lies less than `maxHoursBack` hours before the base and not after it, its consumption is in [150, 250), and it names location `i % 4` |
| Anomalies.GenerateAnomalies | src/services/mockApi.js:97-104 | exactly five records, record `i` built from its own draws, with id `anomaly-i`, its timestamp within the window, consumption in [150, 250) and description naming location `i % 4` |
| Anomalies.AnomalyIdsDistinct | src/services/mockApi.js:98 | no two records share an id |
| Anomalies.SameLocationFourApart | src/services/mockApi.js:102 | two of the five positions name the same location exactly when they are the first and the last |
| Anomalies.DescriptionsCycle | src/services/mockApi.js:102 | two records of a batch have equal descriptions exactly when they are records 0 and 4 |
| Suggestions.GenerateSuggestions | src/services/mockApi.js:107-145 | the catalogue has five entries, each with savings strictly between 0 and 100 |
| Suggestions.CatalogueIds | src/services/mockApi.js:107-145 | entry `k`, counting from 1, has id `sug-k` |
| Suggestions.CatalogueShape | src/services/mockApi.js:107-145 | ids are pairwise distinct and the types used are exactly warning, tip and alert |
| Series.Largest | src/services/mockApi.js:55 | the largest element bounds every element and is one of them |
| Series.Smallest | src/components/LineChart.jsx:3 | the smallest element bounds every element from below and is one of them |
| Series.MaxOf | src/services/mockApi.js:55 | `Math.max(...xs)` is -Infinity exactly for an empty list and otherwise the largest element |
| Series.MinOf | src/components/LineChart.jsx:3 | `Math.min(...xs)` is +Infinity exactly for an empty list and otherwise the smallest element |
| Share.PercentFinite | src/components/DonutChart.jsx:12 | against a non-zero whole, `(part / whole) * 100` is finite and converts back to the part |
| Share.PercentRange | src/components/BarChart.jsx:26 | a part between 0 and a positive whole is between 0% and 100%, and the whole itself is exactly 100% |
| Share.PercentMonotone | src/components/BarChart.jsx:26 | against a positive whole, one percentage is at most another exactly when its part is at most the other's |
| Plot.GetY | src/components/LineChart.jsx:6-8 | defines `getY` on JavaScript numbers; Plot.GetYFinite, Plot.GetYInverse and Plot.GetYOnFlatScale state its value, inverse and flat-scale case |
| Plot.GetYFinite | src/components/LineChart.jsx:6-8 | on a scale with positive range `getY` is the finite value `100 - (v - min) / range * 100` |
| Plot.GetYEnds | src/components/LineChart.jsx:4-8 | `getY(minValue)` is 100 and `getY(maxValue)` is 0 |
| Plot.GetYInverse | src/components/LineChart.jsx:6-8 | a y-coordinate converts back to the value it plots |
| Plot.GetYDecreasing | src/components/LineChart.jsx:6-8 | a larger value is plotted strictly higher |
| Plot.GetYInViewport | src/components/LineChart.jsx:4-8 | values between min and max land in [0, 100] |
| Plot.GetYOnFlatScale | src/components/LineChart.jsx:4-8 | when min equals max, `getY` of that value is `0 / 0` |
| Plot.FlatPoints | src/components/LineChart.jsx:4-15 | on a zero-range scale every plotted point has a NaN y-coordinate |
| Plot.XAt | src/components/LineChart.jsx:12 | defines `(index / (values.length - 1)) * 100`; its range, order and inverse are stated in Plot.XAtProperties |
| Plot.XAtProperties | src/components/LineChart.jsx:12 | with two or more points x runs from 0 to 100, stays in [0, 100], strictly increases, and converts back to the index; a lone point's x is `0 / 0` |
| Plot.XAtIndex | src/components/LineChart.jsx:12 | the x-coordinate converts back to the point's index |
| Plot.Points | src/components/LineChart.jsx:10-15 | defines `values.map(...)` into points; its shape and geometry are stated in Plot.PathShape, Plot.PointsInViewport and Plot.FlatPoints |
| Plot.PointsInViewport | src/components/LineChart.jsx:10-15 | with two or more values on a non-degenerate scale every point is finite and inside the viewport, the first on the left edge and the last on the right |
| Plot.PointAtEnds | src/components/LineChart.jsx:6-8 | a value at the minimum is plotted on the bottom edge and one at the maximum on the top edge |
| Plot.ExtremesTouchEdges | src/components/AreaChart.jsx:2-15 | when both scale ends occur in the series, some point is on the bottom edge and some on the top edge |
| Plot.CornersInViewport | src/components/LineChart.jsx:52 | closing through (100,100) and (0,100) keeps a region inside the viewport |
| Plot.Joined | src/components/LineChart.jsx:16 | `join(' L ')` puts the points at the even positions in order, with an `L` between each two neighbours |
| Plot.VerticesOfJoined | src/components/LineChart.jsx:16 | joining loses no point and adds none |
| Plot.CreatePath | src/components/LineChart.jsx:10-17 | defines `M ${points.join(' L ')}` as tokens; its shape and vertices are stated in Plot.PathShape |
| Plot.PathShape | src/components/LineChart.jsx:10-17 | a path is `M` followed by pairs separated by `L`, one pair per value in input order; with no values it is a bare `M` |
| Plot.FillPath | src/components/LineChart.jsx:52 | defines the path followed by `L 100,100 L 0,100 Z`; its vertices are stated in Plot.FillVertices |
| Plot.FillVertices | src/components/LineChart.jsx:52 | the shaded region is the path followed by the bottom-right and bottom-left corners, and it ends closed |
| Plot.LabelStride | src/components/LineChart.jsx:39 | `ceil(n / k)` is positive for data and is the least stride with `stride * k >= n` |
| Plot.Labelled | src/components/LineChart.jsx:75 | the kept indices are below `n`, increasing, multiples of the stride, and include every such multiple |
| Plot.LabelledCount | src/components/LineChart.jsx:75 | exactly `ceil(n / stride)` indices are kept |
| Plot.LabelThinning | src/components/LineChart.jsx:75 | with stride `ceil(n / k)`, index 0 is kept for non-empty data, an index is kept exactly when it is a multiple of the stride, and at most `k` are kept |
| LineChart.Highs | src/components/LineChart.jsx:2 | each entry is the larger of the reading's consumption and prediction |
| LineChart.Lows | src/components/LineChart.jsx:3 | each entry is the smaller of the reading's consumption and prediction |
| LineChart.LineScale | src/components/LineChart.jsx:2-3 | defines `minValue` and `maxValue` over both series; LineChart.ScaleCoversBothSeries states what they bound |
| LineChart.ScaleCoversBothSeries | src/components/LineChart.jsx:2-3 | every consumption and prediction lies between `minValue` and `maxValue`, and both ends are values that occur; without data the scale is (+Infinity, -Infinity) |
| LineChart.ColumnsWithinScale | src/components/LineChart.jsx:2-3 | both plotted columns lie within the finite scale |
| LineChart.DrawLineChart | src/components/LineChart.jsx:19-20 | defines the two paths, the shaded region and the label indices the component draws; LineChart.LineChartVertices and LineChart.LinesInViewport state their geometry |
| LineChart.LineChartVertices | src/components/LineChart.jsx:19-20 | the consumption and prediction paths hold one point per reading, and the shaded region is the consumption points followed by the two bottom corners |
| LineChart.LinesInViewport | src/components/LineChart.jsx:10-20 | with two or more readings and a positive range both lines have one point per reading, lie inside the viewport, and span from x 0 to x 100 |
| LineChart.ConsumptionLineInViewport | src/components/LineChart.jsx:19 | with two or more readings and a positive range the consumption line has one point per reading inside the viewport, from x 0 to x 100 |
| LineChart.PredictionLineInViewport | src/components/LineChart.jsx:20 | with two or more readings and a positive range the prediction line has one point per reading inside the viewport, from x 0 to x 100 |
| LineChart.FillInViewport | src/components/LineChart.jsx:51-54 | under the same conditions the shaded region lies inside the viewport |
| LineChart.LoneReadingHasNoX | src/components/LineChart.jsx:12 | a single reading is drawn as one point with x-coordinate `0 / 0` |
| LineChart.FlatBatchHasNoY | src/components/LineChart.jsx:4-8 | when min equals max every consumption y-coordinate is NaN |
| LineChart.LineChartLabels | src/components/LineChart.jsx:39 | the first reading is labelled, labels fall exactly on multiples of `ceil(n / 6)`, and there are at most six |
| AreaChart.AreaScale | src/components/AreaChart.jsx:2-3 | defines `minValue` and `maxValue` over the consumption column; AreaChart.AreaScaleCoversConsumption states what they are |
| AreaChart.AreaScaleCoversConsumption | src/components/AreaChart.jsx:2-3 | the scale runs from the smallest to the largest consumption, both of which occur; without data it is (+Infinity, -Infinity) |
| AreaChart.ColumnWithinScale | src/components/AreaChart.jsx:2-3 | the consumption column lies within the finite scale, and both ends are values of the column |
| AreaChart.DrawAreaChart | src/components/AreaChart.jsx:19-56 | defines the outline, the region and the label indices the component draws; AreaChart.AreaChartVertices and AreaChart.AreaInViewport state their geometry |
| AreaChart.AreaChartVertices | src/components/AreaChart.jsx:50-56 | the outline holds the consumption points; the region holds the same points followed by (100,100) and (0,100) and ends closed |
| AreaChart.AreaInViewport | src/components/AreaChart.jsx:2-19 | with two or more readings and a positive range the outline has one point per reading, and outline and region lie inside the viewport |
| AreaChart.AreaTouchesEdges | src/components/AreaChart.jsx:4-8 | under the same conditions some outline point is on the bottom edge and some on the top edge |
| AreaChart.FlatAreaHasNoY | src/components/AreaChart.jsx:4-8 | when every consumption is equal every outline y-coordinate is NaN |
| AreaChart.AreaChartLabels | src/components/AreaChart.jsx:38 | the first reading is labelled, labels fall exactly on multiples of `ceil(n / 6)`, and there are at most six |
| BarChart.DrawBarChart | src/components/BarChart.jsx:25-30 | one bar per reading in input order, keyed by the reading's id, with height `(consumption / maxValue) * 100`, labelled exactly when its index is among the thinned label indices |
| BarChart.Peak | src/components/BarChart.jsx:2 | defines `maxValue` as `Math.max` of the consumption column; BarChart.PeakIsLargest states that it is the largest consumption |
| BarChart.PeakIsLargest | src/components/BarChart.jsx:2 | for a non-empty batch `maxValue` is finite, bounds every consumption and is one of them |
| BarChart.BarHeight | src/components/BarChart.jsx:26 | unfolds bar `i`'s height from BarChart.DrawBarChart: its consumption as a percentage of `maxValue`; its range and order are stated in BarChart.BarHeightsInRange and BarChart.BarHeightsOrdered |
| BarChart.BarHeightsInRange | src/components/BarChart.jsx:26 | for non-negative data with a positive peak every height is finite and in [0, 100], and some bar is exactly 100 |
| BarChart.BarHeightsOrdered | src/components/BarChart.jsx:26 | with a positive peak one bar is at most as tall as another exactly when its consumption is at most the other's |
| BarChart.AllZeroBatchHasNoHeight | src/components/BarChart.jsx:26 | a batch of zero readings has peak 0, so every height is `0 / 0` |
| BarChart.BarLabels | src/components/BarChart.jsx:21-27 | the first bar is labelled, a bar is labelled exactly when its index is a multiple of `ceil(n / 12)`, and at most twelve are |
| DonutChart.IndexOf | src/components/DonutChart.jsx:3 | the lookup finds the first entry for the device, or reports that there is none |
| DonutChart.Upsert | src/components/DonutChart.jsx:3 | defines the reduce step that adds the consumption to the device's entry, starting from 0 when the device has none yet, on first-insertion-ordered entries; DonutChart.UpsertEffect and DonutChart.UpsertTotal state its effect |
| DonutChart.UpsertEffect | src/components/DonutChart.jsx:3 | one reduction step keeps one entry per device, adds the device to the keys, and adds the consumption to that device's amount and to no other |
| DonutChart.UpsertTotal | src/components/DonutChart.jsx:3 | one reduction step adds the consumption to the sum of all amounts |
| DonutChart.Accumulate | src/components/DonutChart.jsx:2-5 | defines the `reduce` into `deviceConsumption`; DonutChart.AccumulateCorrect states what it holds |
| DonutChart.AccumulateCorrect | src/components/DonutChart.jsx:2-5 | the grouping has exactly one entry per device type the readings mention, each holding that device's consumption summed over its readings, and the entries together hold the whole batch |
| DonutChart.Amounts | src/components/DonutChart.jsx:7 | the entries' amounts in entry order, one per entry: the values `total` sums |
| DonutChart.Total | src/components/DonutChart.jsx:7 | defines `total` as the sum of the grouped amounts; DonutChart.AccumulateTotal states that it is the sum of all readings |
| DonutChart.AccumulateTotal | src/components/DonutChart.jsx:7 | `total` is the sum of all readings' consumption |
| DonutChart.EntryIsDeviceSum | src/components/DonutChart.jsx:2-5 | each entry's amount is the consumption of exactly that device's readings |
| DonutChart.AmountsNonNegative | src/components/DonutChart.jsx:2-5 | non-negative readings give non-negative per-device amounts |
| DonutChart.SumWhereNonNegative | src/components/DonutChart.jsx:2-5 | a device's summed consumption over non-negative readings is non-negative |
| DonutChart.DistinctKeys | src/components/DonutChart.jsx:9 | a grouping without repeated devices has as many distinct keys as entries |
| DonutChart.AtMostFiveSegments | src/components/DonutChart.jsx:9-21 | there are at most as many segments as device types, and that is the palette's size of five |
| DonutChart.Segments | src/components/DonutChart.jsx:9-13 | defines the `segments` map; its percentages are stated in DonutChart.Shares, DonutChart.PercentagesMakeWhole and DonutChart.PercentagesInRange |
| DonutChart.Shares | src/components/DonutChart.jsx:12 | against a non-zero total each percentage is the finite share it lists |
| DonutChart.SharesSum | src/components/DonutChart.jsx:12 | the shares add up to the percentage that the sum of the amounts is of the total |
| DonutChart.PercentagesMakeWhole | src/components/DonutChart.jsx:9-13 | with a non-zero total every percentage is finite and together they make 100 |
| DonutChart.PercentagesInRange | src/components/DonutChart.jsx:9-13 | for non-negative data with a positive total every percentage is finite and in [0, 100] |
| DonutChart.Arcs | src/components/DonutChart.jsx:48-57 | one arc per segment; DonutChart.ArcsFollowLoop states each arc's angles, flag and colour |
| DonutChart.Angles | src/components/DonutChart.jsx:48-51 | the loop visits one more angle than there are segments, starting at the initial `currentAngle` |
| DonutChart.Sweep | src/components/DonutChart.jsx:50 | defines `(segment.percentage / 100) * 360`; DonutChart.AnglesCumulative and DonutChart.LargeArcOverHalf state its value for finite percentages |
| DonutChart.AnglesStep | src/components/DonutChart.jsx:49-51 | each turn of the loop moves `currentAngle` on by the segment's `percentage / 100 * 360` |
| DonutChart.ArcsFollowLoop | src/components/DonutChart.jsx:48-57 | the first arc starts at 0; each later arc starts where the previous ended; each ends its own sweep further on, keeps its device, has the flag its sweep gives, and takes colour `index % 5` |
| DonutChart.AnglesCumulative | src/components/DonutChart.jsx:48-51 | with finite percentages the angle after `i` segments is the start plus 3.6 degrees per percent of those segments |
| DonutChart.ArcsClose | src/components/DonutChart.jsx:23-51 | with a non-zero total the arcs go once round: the first starts at 0, each starts where the previous ended, and the last ends at 360 |
| DonutChart.DrawDonut | src/components/DonutChart.jsx:2-61 | defines the total, segments and arcs the component draws; DonutChart.DonutCloses and DonutChart.ColoursDistinct state what it promises |
| DonutChart.DonutCloses | src/components/DonutChart.jsx:2-51 | when the readings' total is not zero the drawn donut closes at 360 degrees |
| DonutChart.LargeArc | src/components/DonutChart.jsx:30 | defines `endAngle - startAngle <= 180 ? '0' : '1'`; DonutChart.LargeArcRule states when it is set |
| DonutChart.LargeArcRule | src/components/DonutChart.jsx:30 | the flag is '1' exactly when a finite sweep exceeds 180 degrees, and a NaN angle also gives '1' |
| DonutChart.LargeArcOverHalf | src/components/DonutChart.jsx:30 | with a non-zero total a segment is a large arc exactly when its share is over 50% |
| DonutChart.PaletteDistinct | src/components/DonutChart.jsx:15-21 | the five palette colours are pairwise distinct |
| DonutChart.ArcColours | src/components/DonutChart.jsx:57 | up to five segments take one palette colour each, in order, with no two alike |
| DonutChart.ColoursDistinct | src/components/DonutChart.jsx:57 | segment `i` has colour `i % 5`, and no two segments of a drawn donut share a colour |
| DonutChart.NaNArcs | src/components/DonutChart.jsx:50 | when every percentage is NaN every end angle is NaN and every segment is flagged large |
| DonutChart.ZeroBatchAmounts | src/components/DonutChart.jsx:2-7 | a non-empty batch of zero readings gives a zero total and at least one entry, every entry holding zero |
| DonutChart.ZeroBatchDonut | src/components/DonutChart.jsx:7-51 | a non-empty batch of zero readings has total 0, every percentage `0 / 0`, every end angle NaN and every segment flagged large |

## Left out

- The async `fetch*` wrappers and their `setTimeout` latency are left out because they add delay and nothing else. So is the fact that `fetchEnergyStats` draws its own batch: `calculateStats` is modelled only as a function of the batch it is given.
- `Math.random` is not modelled as a distribution; each call is a draw in [0, 1) supplied by the caller.
- Generator.GenerateEnergyData: the `Math.sin((i / dataPoints) * 2π)` term is the caller-supplied `wave[i]`, because the model has no sine. Generator.ClampInactive assumes `wave` lies in [-1, 1], as a true sine value does.
- `Date`, `setHours`, `toISOString`, time zones, daylight-saving shifts and the `'T23:59:59'` suffix are replaced by whole hours on a fixed time line.
- `formatTime` and its locale strings are left out: they only produce the label text, and labels are modelled by index.
- IEEE-754 rounding and the sign of zero are not modelled: finite numbers are exact reals.
- `toFixed` formatting and the decimal text of SVG coordinates are left out. Paths are modelled as token lists, not strings.
- DonutChart.Arcs: the path string `createArc` returns is left out; only its large-arc flag is modelled. The string's endpoints need cosine and sine (`polarToCartesian`), and it also embeds the radius 40 and the centre 50. The arcs carry their angles, large-arc flag and colour.
- React rendering, state, effects, styling classes, tooltips and the inner white circle of the donut are presentation only.
- The yearly anomaly window is 8760 hours (365 days), while the yearly readings span 12 × 720 = 8640 hours. This is stated in Anomalies.WindowMatchesReadings and not treated as a defect.

=== FILE: anomalies.dfy ===
/**
 `generateAnomalies`: five flagged records, independent of any reading batch.
 The hour offset, severity, type and consumption of each record come from
 `Math.random()` draws supplied explicitly; the location named in the
 description is not drawn but cycles through the locations by index.
 */
module Anomalies {
  import opened Energy
  import opened Decimal
  import opened Generator

  datatype Severity = High | Medium | Low

  /** The `severities` array, in source order */
  const Severities: seq<Severity> := [High, Medium, Low]

  datatype AnomalyType = SuddenSpike | UnusualPattern | DeviceMalfunction | AfterHoursUsage

  /** The `types` array, in source order */
  const AnomalyTypes: seq<AnomalyType> := [SuddenSpike, UnusualPattern, DeviceMalfunction, AfterHoursUsage]

  datatype Anomaly = Anomaly(
    id: string,
    timestamp: Hour,
    severity: Severity,
    kind: AnomalyType,
    description: string,
    consumption: real)

  /** The draws one record consumes, in the order the source makes them */
  datatype AnomalyDraws = AnomalyDraws(hours: real, severity: real, kind: real, amount: real) {
    predicate Valid() {
      IsDraw(hours) && IsDraw(severity) && IsDraw(kind) && IsDraw(amount)
    }
  }

  /** Number of records in every batch */
  const AnomalyCount: nat := 5

  /** The `switch (period)` setting `maxHoursBack` in `generateAnomalies`: how far back a record may lie */
  function MaxHoursBack(p: Period): (h: nat)
    ensures 0 < h
  {
    match p
    case Daily => 24
    case Weekly => 24 * 7
    case Monthly => 24 * 30
    case Yearly => 24 * 365
    case Unrecognised => 24
  }

  /** The table, keyed by the period's name as the service receives it */
  lemma MaxHoursBackTable(name: string)
    ensures name == "daily" ==> MaxHoursBack(PeriodOf(name)) == 24
    ensures name == "weekly" ==> MaxHoursBack(PeriodOf(name)) == 168
    ensures name == "monthly" ==> MaxHoursBack(PeriodOf(name)) == 720
    ensures name == "yearly" ==> MaxHoursBack(PeriodOf(name)) == 8760
    ensures name !in {"daily", "weekly", "monthly", "yearly"} ==> MaxHoursBack(PeriodOf(name)) == 24
  {
  }

  /** Except for yearly, the anomaly window is exactly the span the period's
      readings cover; the yearly window (365 days) is 120 hours longer than the
      yearly readings' twelve 30-day months */
  lemma WindowMatchesReadings(p: Period)
    ensures p != Yearly ==> MaxHoursBack(p) == ShapeOf(p).Span()
    ensures p == Yearly ==> MaxHoursBack(p) == ShapeOf(p).Span() + 120
  {
  }

  const DescriptionPrefix: string := "Detected abnormal energy consumption in "

  /** The description text naming location `l` */
  function Describe(l: Location): string {
    DescriptionPrefix + LocationName(l)
  }

  /** The description determines the location it names */
  lemma DescribeInjective(a: Location, b: Location)
    requires Describe(a) == Describe(b)
    ensures a == b
  {
    assert Describe(a)[|DescriptionPrefix|..] == LocationName(a);
    assert Describe(b)[|DescriptionPrefix|..] == LocationName(b);
  }

  /** The id of record `i` */
  function AnomalyId(i: nat): string {
    "anomaly-" + Show(i)
  }

  /** Record `i` of the batch */
  function MakeAnomaly(p: Period, base: Hour, i: nat, d: AnomalyDraws): (a: Anomaly)
    requires d.Valid()
    ensures base - MaxHoursBack(p) < a.timestamp <= base
    ensures 150.0 <= a.consumption < 250.0
    ensures a.description == Describe(Locations[i % |Locations|])
  {
    Anomaly(
      AnomalyId(i),
      GenerateTimestamp(Pick(d.hours, MaxHoursBack(p)), base),
      Severities[Pick(d.severity, |Severities|)],
      AnomalyTypes[Pick(d.kind, |AnomalyTypes|)],
      Describe(Locations[i % |Locations|]),
      150.0 + d.amount * 100.0)
  }

  /** `generateAnomalies(period, baseDate)` */
  function GenerateAnomalies(p: Period, base: Hour, draws: seq<AnomalyDraws>): (r: seq<Anomaly>)
    requires |draws| == AnomalyCount
    requires forall i :: 0 <= i < |draws| ==> draws[i].Valid()
    ensures |r| == 5
    ensures forall i :: 0 <= i < |r| ==> r[i].id == AnomalyId(i)
    ensures forall i :: 0 <= i < |r| ==> base - MaxHoursBack(p) < r[i].timestamp <= base
    ensures forall i :: 0 <= i < |r| ==> 150.0 <= r[i].consumption < 250.0
    ensures forall i :: 0 <= i < |r| ==> r[i].description == Describe(Locations[i % 4])
    ensures forall i :: 0 <= i < |r| ==> r[i] == MakeAnomaly(p, base, i, draws[i])
  {
    seq(AnomalyCount, i requires 0 <= i < AnomalyCount => MakeAnomaly(p, base, i, draws[i]))
  }

  /** No two records of a batch share an id */
  lemma AnomalyIdsDistinct(p: Period, base: Hour, draws: seq<AnomalyDraws>)
    requires |draws| == AnomalyCount
    requires forall i :: 0 <= i < |draws| ==> draws[i].Valid()
    ensures var r := GenerateAnomalies(p, base, draws);
            forall i, j :: 0 <= i < |r| && 0 <= j < |r| && r[i].id == r[j].id ==> i == j
  {
    var r := GenerateAnomalies(p, base, draws);
    forall i, j | 0 <= i < |r| && 0 <= j < |r| && r[i].id == r[j].id
      ensures i == j
    {
      PrefixedShowInjective("anomaly-", i, j);
    }
  }

  /** Two record positions name the same location exactly when they are four apart */
  lemma SameLocationFourApart(i: nat, j: nat)
    requires i < j < AnomalyCount
    ensures Describe(Locations[i % 4]) == Describe(Locations[j % 4]) <==> i == 0 && j == 4
  {
    if Describe(Locations[i % 4]) == Describe(Locations[j % 4]) {
      DescribeInjective(Locations[i % 4], Locations[j % 4]);
    }
  }

  /** Descriptions repeat only four records apart: the first and the last
      record name the same location and no other two do */
  lemma DescriptionsCycle(p: Period, base: Hour, draws: seq<AnomalyDraws>)
    requires |draws| == AnomalyCount
    requires forall i :: 0 <= i < |draws| ==> draws[i].Valid()
    ensures var r := GenerateAnomalies(p, base, draws);
            forall i, j :: 0 <= i < j < |r| ==> (r[i].description == r[j].description <==> i == 0 && j == 4)
  {
    var r := GenerateAnomalies(p, base, draws);
    forall i, j | 0 <= i < j < |r|
      ensures r[i].description == r[j].description <==> i == 0 && j == 4
    {
      SameLocationFourApart(i, j);
    }
  }
}

=== FILE: area_chart.dfy ===
/**
 The geometry of the `AreaChart` component: the consumption series alone, on
 a scale from its own smallest to its own largest value, drawn as one path
 and as a region closed through the bottom corners, with about six time
 labels.
 */
module AreaChart {
  import opened JsNumber
  import opened Series
  import opened Energy
  import opened Plot

  /** `Math.ceil(data.length / 6)`: aim for six labels */
  const LabelTarget: nat := 6

  /** `minValue` and `maxValue` of `AreaChart`: consumption only */
  function AreaScale(data: seq<Reading>): Scale {
    var cs := Consumptions(data);
    Scale(MinOf(cs), MaxOf(cs))
  }

  datatype AreaChartView = AreaChartView(outline: seq<Token>, fill: seq<Token>, labels: seq<nat>)

  /** What `AreaChart({ data, period })` draws */
  function DrawAreaChart(data: seq<Reading>): AreaChartView {
    var outline := CreatePath(Consumptions(data), AreaScale(data));
    AreaChartView(outline, FillPath(outline), Labelled(|data|, LabelStride(|data|, LabelTarget)))
  }

  /** The scale runs from the smallest to the largest consumption, both of
      which occur in the batch; without data it is (+Infinity, -Infinity) */
  lemma AreaScaleCoversConsumption(data: seq<Reading>)
    ensures |data| == 0 ==> AreaScale(data) == Scale(PosInf, NegInf)
    ensures 0 < |data| ==> (
              var sc := AreaScale(data);
              && sc.lo.Num? && sc.hi.Num?
              && (forall i :: 0 <= i < |data| ==> sc.lo.v <= data[i].consumption <= sc.hi.v)
              && (exists i :: 0 <= i < |data| && sc.lo.v == data[i].consumption)
              && (exists i :: 0 <= i < |data| && sc.hi.v == data[i].consumption))
  {
    if 0 < |data| {
      var cs := Consumptions(data);
      var a :| 0 <= a < |cs| && cs[a] == Smallest(cs);
      var b :| 0 <= b < |cs| && cs[b] == Largest(cs);
      assert data[a].consumption == cs[a] && data[b].consumption == cs[b];
    }
  }

  /** The consumption column lies within the scale's finite bounds, and both
      bounds are values of the column */
  lemma ColumnWithinScale(data: seq<Reading>)
    requires 0 < |data|
    ensures var sc := AreaScale(data);
            var cs := Consumptions(data);
            && sc.lo.Num? && sc.hi.Num?
            && (forall i :: 0 <= i < |cs| ==> sc.lo.v <= cs[i] <= sc.hi.v)
            && (exists i :: 0 <= i < |cs| && cs[i] == sc.lo.v)
            && (exists i :: 0 <= i < |cs| && cs[i] == sc.hi.v)
  {
  }

  /** The outline's vertices are the consumption points; the fill's are the
      same points followed by the bottom corners, and the fill ends closed */
  lemma AreaChartVertices(data: seq<Reading>)
    ensures var v := DrawAreaChart(data);
            var sc := AreaScale(data);
            && Vertices(v.outline) == Points(Consumptions(data), sc)
            && Vertices(v.fill) == Points(Consumptions(data), sc) + Corners
            && v.fill[|v.fill| - 1] == Z
  {
    var v := DrawAreaChart(data);
    assert v.fill == FillPath(v.outline);
    PathShape(Consumptions(data), AreaScale(data));
    FillVertices(v.outline);
  }

  /** With two or more readings that are not all equal, the outline and the
      region stay inside the viewport, one outline point per reading */
  lemma AreaInViewport(data: seq<Reading>)
    requires 2 <= |data|
    requires Less(AreaScale(data).lo, AreaScale(data).hi)
    ensures var v := DrawAreaChart(data);
            && |Vertices(v.outline)| == |data|
            && AllInViewport(Vertices(v.outline))
            && AllInViewport(Vertices(v.fill))
  {
    var sc := AreaScale(data);
    var cs := Consumptions(data);
    ColumnWithinScale(data);
    AreaChartVertices(data);
    PointsInViewport(cs, sc.lo.v, sc.hi.v);
    CornersInViewport(Points(cs, sc));
  }

  /** Under the same conditions the lowest reading touches the bottom edge
      and the highest the top edge */
  lemma AreaTouchesEdges(data: seq<Reading>)
    requires 2 <= |data|
    requires Less(AreaScale(data).lo, AreaScale(data).hi)
    ensures var ov := Vertices(DrawAreaChart(data).outline);
            && (exists i :: 0 <= i < |ov| && ov[i].y == Num(100.0))
            && (exists i :: 0 <= i < |ov| && ov[i].y == Num(0.0))
  {
    ColumnWithinScale(data);
    AreaChartVertices(data);
    ExtremesTouchEdges(Consumptions(data), AreaScale(data));
  }

  /** A batch whose consumption values are all equal has a zero range, so
      every y-coordinate of the outline is 0/0 */
  lemma FlatAreaHasNoY(data: seq<Reading>)
    requires 0 < |data|
    requires AreaScale(data).lo == AreaScale(data).hi
    ensures var ov := Vertices(DrawAreaChart(data).outline);
            forall i :: 0 <= i < |ov| ==> ov[i].y.NaN?
  {
    AreaChartVertices(data);
    ColumnWithinScale(data);
    FlatPoints(Consumptions(data), AreaScale(data));
  }

  /** About six labels: the first reading is labelled, labels fall exactly on
      multiples of `ceil(n / 6)`, and there are at most six */
  lemma AreaChartLabels(data: seq<Reading>)
    ensures var ls := DrawAreaChart(data).labels;
            var s := LabelStride(|data|, LabelTarget);
            && (0 < |data| ==> 0 in ls)
            && (forall i :: 0 <= i < |data| ==> (i in ls <==> i % s == 0))
            && |ls| <= 6
  {
    LabelThinning(|data|, LabelTarget);
  }
}

=== FILE: arith.dfy ===
/**
 Small facts of ordered-field and integer arithmetic that the solver does not
 find on its own once a product or quotient has two variable factors.
 */
module Arith {

  /** `b * x < b * y` for a positive factor */
  lemma ScaleStrict(b: real, x: real, y: real)
    requires 0.0 < b && x < y
    ensures b * x < b * y
  {
  }

  /** `b * x <= b * y` for a positive factor */
  lemma ScaleAtMost(b: real, x: real, y: real)
    requires 0.0 < b && x <= y
    ensures b * x <= b * y
  {
  }

  /** Dividing by a positive number keeps strict order */
  lemma DivStrict(a: real, b: real, r: real)
    requires 0.0 < r && a < b
    ensures a / r < b / r
  {
    assert b / r - a / r == (b - a) / r;
  }

  /** Dividing by a positive number keeps weak order */
  lemma DivAtMost(a: real, b: real, r: real)
    requires 0.0 < r && a <= b
    ensures a / r <= b / r
  {
    assert b / r - a / r == (b - a) / r;
  }

  /** Dividing then multiplying by the same non-zero number cancels */
  lemma DivCancel(a: real, r: real)
    requires r != 0.0
    ensures a / r * r == a
  {
  }

  /** A non-zero number divided by itself is one */
  lemma DivSelf(r: real)
    requires r != 0.0
    ensures r / r == 1.0
  {
  }

  /** Division by a non-zero number distributes over a sum */
  lemma DivAdd(a: real, b: real, r: real)
    requires r != 0.0
    ensures (a + b) / r == a / r + b / r
  {
  }

  /** `a * s <= b * s` for a non-negative factor */
  lemma MulAtMost(a: int, b: int, s: int)
    ensures a <= b && 0 <= s ==> a * s <= b * s
  {
    assert b * s - a * s == (b - a) * s;
  }

  /** `x / s == q` exactly when `q * s <= x < (q + 1) * s` */
  lemma DivBetween(x: nat, s: nat, q: nat)
    requires 0 < s
    requires q * s <= x < q * s + s
    ensures x / s == q
  {
    var d, m := x / s, x % s;
    assert x == d * s + m;
    assert (d + 1) * s == d * s + s;
    assert (q + 1) * s == q * s + s;
    MulAtMost(d + 1, q, s);
    MulAtMost(q + 1, d, s);
  }

  /** `x / s <= k` when `x < (k + 1) * s` */
  lemma DivBelow(x: nat, s: nat, k: nat)
    requires 0 < s
    requires x < k * s + s
    ensures x / s <= k
  {
    var d, m := x / s, x % s;
    assert x == d * s + m;
    assert (k + 1) * s == k * s + s;
    MulAtMost(k + 1, d, s);
  }

  /** Rounding `a + 1` up to a multiple of `s` counts one more multiple than
      rounding `a` up exactly when `a` itself is a multiple */
  lemma CeilStep(a: nat, s: nat)
    requires 0 < s
    ensures (a + s) / s == (a + s - 1) / s + (if a % s == 0 then 1 else 0)
  {
    var q, m := a / s, a % s;
    assert a == q * s + m;
    assert (q + 1) * s == q * s + s;
    DivBetween(a + s, s, q + 1);
    if m == 0 {
      DivBetween(a + s - 1, s, q);
    } else {
      DivBetween(a + s - 1, s, q + 1);
    }
  }
}

=== FILE: bar_chart.dfy ===
/**
 The geometry of the `BarChart` component: one bar per reading, its height
 the reading's consumption as a percentage of the largest consumption, and a
 time label under about twelve of the bars.
 */
module BarChart {
  import opened JsNumber
  import opened Series
  import opened Energy
  import opened Plot
  import opened Share

  /** `Math.ceil(data.length / 12)`: aim for twelve labels */
  const LabelTarget: nat := 12

  /** One bar: its React key, its height in percent and whether it is labelled */
  datatype Bar = Bar(key: string, height: JsNum, showLabel: bool)

  /** `maxValue` of `BarChart` */
  function Peak(data: seq<Reading>): JsNum {
    MaxOf(Consumptions(data))
  }

  /** What `BarChart({ data, period })` draws, left to right */
  function DrawBarChart(data: seq<Reading>): (bars: seq<Bar>)
    ensures |bars| == |data|
    ensures forall i :: 0 <= i < |bars| ==> bars[i].key == data[i].id
    ensures forall i :: 0 <= i < |bars| ==> bars[i].height == Percent(data[i].consumption, Peak(data))
    ensures forall i :: 0 <= i < |bars| ==>
              (bars[i].showLabel <==> i in Labelled(|data|, LabelStride(|data|, LabelTarget)))
  {
    var peak := Peak(data);
    var stride := LabelStride(|data|, LabelTarget);
    seq(|data|, i requires 0 <= i < |data| =>
      Bar(data[i].id, Percent(data[i].consumption, peak), i % stride == 0))
  }

  /** The peak is the largest consumption, and it occurs */
  lemma PeakIsLargest(data: seq<Reading>)
    requires 0 < |data|
    ensures Peak(data).Num?
    ensures forall i :: 0 <= i < |data| ==> data[i].consumption <= Peak(data).v
    ensures exists i :: 0 <= i < |data| && data[i].consumption == Peak(data).v
  {
    var cs := Consumptions(data);
    var a :| 0 <= a < |cs| && cs[a] == Largest(cs);
    assert data[a].consumption == cs[a];
  }

  /** Bar `i`'s height is its consumption as a percentage of the peak */
  lemma BarHeight(data: seq<Reading>, i: nat)
    requires i < |data|
    ensures DrawBarChart(data)[i].height == Percent(data[i].consumption, Peak(data))
  {
  }

  /** For non-negative consumption with a positive peak every height is
      finite and within [0, 100], and a tallest bar reaches exactly 100 */
  lemma BarHeightsInRange(data: seq<Reading>)
    requires NonNegative(Consumptions(data))
    requires Less(Num(0.0), Peak(data))
    ensures var bars := DrawBarChart(data);
            && (forall i :: 0 <= i < |bars| ==> bars[i].height.Num? && 0.0 <= bars[i].height.v <= 100.0)
            && (exists i :: 0 <= i < |bars| && bars[i].height == Num(100.0))
  {
    var bars := DrawBarChart(data);
    var cs := Consumptions(data);
    PeakIsLargest(data);
    var m := Peak(data).v;
    forall i | 0 <= i < |bars|
      ensures bars[i].height.Num? && 0.0 <= bars[i].height.v <= 100.0
    {
      assert 0.0 <= cs[i];
      BarHeight(data, i);
      PercentRange(data[i].consumption, m);
    }
    var a :| 0 <= a < |data| && data[a].consumption == m;
    BarHeight(data, a);
    PercentRange(m, m);
  }

  /** With a positive peak, bar heights are ordered as the consumption values are */
  lemma BarHeightsOrdered(data: seq<Reading>, i: nat, j: nat)
    requires i < |data| && j < |data|
    requires Less(Num(0.0), Peak(data))
    ensures var bars := DrawBarChart(data);
            bars[i].height.Num? && bars[j].height.Num?
            && (bars[i].height.v <= bars[j].height.v <==> data[i].consumption <= data[j].consumption)
  {
    BarHeight(data, i);
    BarHeight(data, j);
    PercentMonotone(data[i].consumption, data[j].consumption, Peak(data).v);
  }

  /** A batch of zero readings has peak 0, so every height is `0 / 0` */
  lemma AllZeroBatchHasNoHeight(data: seq<Reading>)
    requires 0 < |data|
    requires Constant(Consumptions(data), 0.0)
    ensures var bars := DrawBarChart(data);
            forall i :: 0 <= i < |bars| ==> bars[i].height.NaN?
  {
    PeakIsLargest(data);
    var a :| 0 <= a < |data| && data[a].consumption == Peak(data).v;
    assert Consumptions(data)[a] == 0.0;
    PercentOfNothing();
    forall i | 0 <= i < |data|
      ensures DrawBarChart(data)[i].height.NaN?
    {
      assert Consumptions(data)[i] == 0.0;
      BarHeight(data, i);
    }
  }

  /** About twelve labels: the first bar is labelled, labelled bars are
      exactly those at multiples of `ceil(n / 12)`, and there are at most twelve */
  lemma BarLabels(data: seq<Reading>)
    ensures var bars := DrawBarChart(data);
            var s := LabelStride(|data|, LabelTarget);
            && (0 < |data| ==> bars[0].showLabel)
            && (forall i :: 0 <= i < |bars| ==> (bars[i].showLabel <==> i % s == 0))
            && |Labelled(|data|, s)| <= 12
  {
    LabelThinning(|data|, LabelTarget);
  }
}

=== FILE: decimal.dfy ===
/**
 The decimal rendering JavaScript gives a non-negative integer inside a
 template literal (`${i}`): digits, most significant first, no leading zero.
 Reading it back is the partner that makes the rendering injective, which is
 what keeps generated record ids distinct.
 */
module Decimal {

  predicate IsDigit(c: char) {
    '0' <= c <= '9'
  }

  function DigitChar(d: nat): (c: char)
    requires d < 10
    ensures IsDigit(c)
    ensures (c as int) - ('0' as int) == d
  {
    (('0' as int) + d) as char
  }

  function DigitValue(c: char): nat
    requires IsDigit(c)
  {
    (c as int) - ('0' as int)
  }

  /** The decimal numeral of `n` */
  function Show(n: nat): (s: string)
    ensures 0 < |s|
    ensures forall i :: 0 <= i < |s| ==> IsDigit(s[i])
    ensures |s| > 1 ==> s[0] != '0'
    decreases n
  {
    if n < 10 then [DigitChar(n)] else Show(n / 10) + [DigitChar(n % 10)]
  }

  /** The value of a string of digits */
  function Read(s: string): nat
    requires forall i :: 0 <= i < |s| ==> IsDigit(s[i])
    decreases |s|
  {
    if |s| == 0 then 0 else Read(s[..|s| - 1]) * 10 + DigitValue(s[|s| - 1])
  }

  /** Reading a numeral gives back the number it shows */
  lemma {:induction false} ReadShow(n: nat)
    ensures Read(Show(n)) == n
    decreases n
  {
    if n >= 10 {
      var s := Show(n);
      assert s[..|s| - 1] == Show(n / 10);
      ReadShow(n / 10);
    }
  }

  /** Different numbers have different numerals */
  lemma ShowInjective(a: nat, b: nat)
    requires Show(a) == Show(b)
    ensures a == b
  {
    ReadShow(a);
    ReadShow(b);
  }

  /** `prefix + Show(i)` determines `i`: ids built this way are distinct */
  lemma PrefixedShowInjective(prefix: string, a: nat, b: nat)
    requires prefix + Show(a) == prefix + Show(b)
    ensures a == b
  {
    assert (prefix + Show(a))[|prefix|..] == Show(a);
    assert (prefix + Show(b))[|prefix|..] == Show(b);
    ShowInjective(a, b);
  }
}

=== FILE: donut_chart.dfy ===
/**
 The arithmetic of the `DonutChart` component: consumption summed per device
 type (a JavaScript object, whose string keys keep first-insertion order), the
 grand total, each device's percentage share, the cumulative start and end
 angles of the segments, the large-arc flag of each segment's SVG arc, and the
 colour each segment takes from a five-entry palette. The screen coordinates
 `polarToCartesian` computes with cosine and sine are not modelled.
 */
module DonutChart {
  import opened JsNumber
  import opened Series
  import opened Energy
  import opened Share
  import opened Arith

  /** One entry of `deviceConsumption`: a device type and its running sum */
  datatype DeviceTotal = DeviceTotal(device: Device, amount: real)

  /** The position of device `d`'s entry, or `|acc|` when it has none */
  function IndexOf(acc: seq<DeviceTotal>, d: Device): (k: nat)
    ensures k <= |acc|
    ensures k < |acc| ==> acc[k].device == d
    ensures forall i :: 0 <= i < k ==> acc[i].device != d
    decreases |acc|
  {
    if |acc| == 0 then 0
    else if acc[0].device == d then 0
    else 1 + IndexOf(acc[1..], d)
  }

  /** `acc[d] = (acc[d] || 0) + c`: add to an existing entry in place, or
      append a new entry after all the existing ones */
  function Upsert(acc: seq<DeviceTotal>, d: Device, c: real): seq<DeviceTotal> {
    var k := IndexOf(acc, d);
    if k < |acc| then acc[k := DeviceTotal(d, acc[k].amount + c)]
    else acc + [DeviceTotal(d, c)]
  }

  /** The `data.reduce(..., {})` building `deviceConsumption` in `DonutChart` */
  function Accumulate(data: seq<Reading>): seq<DeviceTotal>
    decreases |data|
  {
    if |data| == 0 then []
    else
      var last := data[|data| - 1];
      Upsert(Accumulate(data[..|data| - 1]), last.device, last.consumption)
  }

  /** The device types that have an entry */
  function Keys(acc: seq<DeviceTotal>): set<Device> {
    set i | 0 <= i < |acc| :: acc[i].device
  }

  /** The device types the readings mention */
  function DevicesIn(data: seq<Reading>): set<Device> {
    set i | 0 <= i < |data| :: data[i].device
  }

  /** No device type has two entries */
  predicate Distinct(acc: seq<DeviceTotal>) {
    forall i, j :: 0 <= i < j < |acc| ==> acc[i].device != acc[j].device
  }

  /** The amount recorded for device `d`, 0 when it has no entry */
  function AmountOf(acc: seq<DeviceTotal>, d: Device): real {
    var k := IndexOf(acc, d);
    if k < |acc| then acc[k].amount else 0.0
  }

  /** Reference definition: the consumption of the readings of device `d`, summed in order */
  function SumWhere(data: seq<Reading>, d: Device): real
    decreases |data|
  {
    if |data| == 0 then 0.0
    else
      var last := data[|data| - 1];
      SumWhere(data[..|data| - 1], d) + (if last.device == d then last.consumption else 0.0)
  }

  /** `Object.values(deviceConsumption)` */
  function Amounts(acc: seq<DeviceTotal>): (xs: seq<real>)
    ensures |xs| == |acc|
    ensures forall i :: 0 <= i < |acc| ==> xs[i] == acc[i].amount
  {
    seq(|acc|, i requires 0 <= i < |acc| => acc[i].amount)
  }

  /** In a table without repeats, each entry is the one `IndexOf` finds */
  lemma IndexOfDistinct(acc: seq<DeviceTotal>, i: nat)
    requires Distinct(acc) && i < |acc|
    ensures IndexOf(acc, acc[i].device) == i
  {
  }

  /** Upserting keeps the table free of repeats, adds `d` to the keys and adds
      `c` to `d`'s amount and to no other */
  lemma UpsertEffect(acc: seq<DeviceTotal>, d: Device, c: real)
    requires Distinct(acc)
    ensures var acc' := Upsert(acc, d, c);
            && Distinct(acc')
            && Keys(acc') == Keys(acc) + {d}
            && (forall e :: AmountOf(acc', e) == AmountOf(acc, e) + (if e == d then c else 0.0))
  {
    var acc' := Upsert(acc, d, c);
    var k := IndexOf(acc, d);
    forall e
      ensures AmountOf(acc', e) == AmountOf(acc, e) + (if e == d then c else 0.0)
    {
      var a, b := IndexOf(acc', e), IndexOf(acc, e);
      assert forall i :: 0 <= i < |acc| ==> acc'[i].device == acc[i].device;
      assert acc'[k].device == d;
      if e == d {
        assert a <= k;
      } else if b < |acc| {
        assert acc'[b].device == e;
      }
    }
    assert forall i :: 0 <= i < |acc| ==> acc'[i].device == acc[i].device;
    assert acc'[k].device == d;
    forall e | e in Keys(acc')
      ensures e in Keys(acc) + {d}
    {
      var i :| 0 <= i < |acc'| && acc'[i].device == e;
      if i < |acc| {
        assert acc[i].device == e;
      }
    }
    forall e | e in Keys(acc) + {d}
      ensures e in Keys(acc')
    {
      if e != d {
        var i :| 0 <= i < |acc| && acc[i].device == e;
        assert acc'[i].device == e;
      }
    }
  }

  /** Upserting adds `c` to the total of the amounts */
  lemma UpsertTotal(acc: seq<DeviceTotal>, d: Device, c: real)
    ensures Sum(Amounts(Upsert(acc, d, c))) == Sum(Amounts(acc)) + c
  {
    var k := IndexOf(acc, d);
    if k < |acc| {
      assert Amounts(Upsert(acc, d, c)) == Amounts(acc)[k := Amounts(acc)[k] + c];
      SumUpdate(Amounts(acc), k, c);
    } else {
      assert Amounts(Upsert(acc, d, c)) == Amounts(acc) + [c];
      SumAppend(Amounts(acc), [c]);
      assert Sum([c]) == Sum([c][..0]) + c;
    }
  }

  /** The readings' device types, one more reading at a time */
  lemma DevicesInSnoc(data: seq<Reading>)
    requires 0 < |data|
    ensures DevicesIn(data) == DevicesIn(data[..|data| - 1]) + {data[|data| - 1].device}
  {
    var init := data[..|data| - 1];
    forall e | e in DevicesIn(data)
      ensures e in DevicesIn(init) + {data[|data| - 1].device}
    {
      var i :| 0 <= i < |data| && data[i].device == e;
      if i < |init| {
        assert init[i].device == e;
      }
    }
    forall e | e in DevicesIn(init)
      ensures e in DevicesIn(data)
    {
      var i :| 0 <= i < |init| && init[i].device == e;
      assert data[i].device == e;
    }
  }

  /** The consumption column, one more reading at a time */
  lemma ConsumptionsSnoc(data: seq<Reading>)
    requires 0 < |data|
    ensures Consumptions(data) == Consumptions(data[..|data| - 1]) + [data[|data| - 1].consumption]
  {
  }

  /** The grouping has exactly one entry per device type the readings
      mention, each entry holds the sum of that device's consumption, and
      the entries together hold the whole batch's consumption */
  lemma {:induction false} AccumulateCorrect(data: seq<Reading>)
    ensures var acc := Accumulate(data);
            && Distinct(acc)
            && Keys(acc) == DevicesIn(data)
            && (forall e :: AmountOf(acc, e) == SumWhere(data, e))
            && Sum(Amounts(acc)) == Sum(Consumptions(data))
    decreases |data|
  {
    if |data| > 0 {
      var init, last := data[..|data| - 1], data[|data| - 1];
      AccumulateCorrect(init);
      UpsertEffect(Accumulate(init), last.device, last.consumption);
      UpsertTotal(Accumulate(init), last.device, last.consumption);
      DevicesInSnoc(data);
      ConsumptionsSnoc(data);
      SumAppend(Consumptions(init), [last.consumption]);
    }
  }

  /** `total` is the sum of the batch's consumption */
  lemma AccumulateTotal(data: seq<Reading>)
    ensures Total(Accumulate(data)) == Sum(Consumptions(data))
  {
    AccumulateCorrect(data);
  }

  /** Each entry holds exactly its device's consumption */
  lemma EntryIsDeviceSum(data: seq<Reading>, i: nat)
    requires i < |Accumulate(data)|
    ensures Accumulate(data)[i].amount == SumWhere(data, Accumulate(data)[i].device)
  {
    var acc := Accumulate(data);
    AccumulateCorrect(data);
    IndexOfDistinct(acc, i);
    assert AmountOf(acc, acc[i].device) == acc[i].amount;
  }

  /** One legend entry and donut segment */
  datatype Segment = Segment(device: Device, consumption: real, percentage: JsNum)

  /** `total` in `DonutChart`: the entries' amounts summed in entry order */
  function Total(acc: seq<DeviceTotal>): real {
    Sum(Amounts(acc))
  }

  /** The `segments` map in `DonutChart` */
  function Segments(acc: seq<DeviceTotal>): (segs: seq<Segment>)
    ensures |segs| == |acc|
    ensures forall i :: 0 <= i < |acc| ==>
              segs[i] == Segment(acc[i].device, acc[i].amount, Percent(acc[i].amount, Num(Total(acc))))
  {
    seq(|acc|, i requires 0 <= i < |acc| =>
      Segment(acc[i].device, acc[i].amount, Percent(acc[i].amount, Num(Total(acc)))))
  }

  /** Each amount as a percentage of a non-zero total */
  function Shares(xs: seq<real>, t: real): (ps: seq<real>)
    requires t != 0.0
    ensures |ps| == |xs|
    ensures forall i :: 0 <= i < |xs| ==> Percent(xs[i], Num(t)) == Num(ps[i])
  {
    seq(|xs|, i requires 0 <= i < |xs| => xs[i] / t * 100.0)
  }

  /** The shares add up to the same percentage the sum of the amounts is */
  lemma {:induction false} SharesSum(xs: seq<real>, t: real)
    requires t != 0.0
    ensures Sum(Shares(xs, t)) == Sum(xs) / t * 100.0
    decreases |xs|
  {
    if |xs| > 0 {
      var init := xs[..|xs| - 1];
      SharesSum(init, t);
      assert Shares(xs, t)[..|xs| - 1] == Shares(init, t);
      DivAdd(Sum(init), xs[|xs| - 1], t);
    }
  }

  /** With a non-zero total every percentage is finite and together they make 100 */
  lemma PercentagesMakeWhole(acc: seq<DeviceTotal>)
    requires Total(acc) != 0.0
    ensures var segs := Segments(acc);
            var ps := Shares(Amounts(acc), Total(acc));
            && (forall i :: 0 <= i < |segs| ==> segs[i].percentage == Num(ps[i]))
            && Sum(ps) == 100.0
  {
    var t := Total(acc);
    SharesSum(Amounts(acc), t);
    DivSelf(t);
  }

  /** For non-negative consumption with a positive total each percentage lies in [0, 100] */
  lemma PercentagesInRange(data: seq<Reading>)
    requires NonNegative(Consumptions(data))
    requires 0.0 < Sum(Consumptions(data))
    ensures var segs := Segments(Accumulate(data));
            forall i :: 0 <= i < |segs| ==>
              segs[i].percentage.Num? && 0.0 <= segs[i].percentage.v <= 100.0
  {
    var acc := Accumulate(data);
    AccumulateCorrect(data);
    AmountsNonNegative(data);
    forall i | 0 <= i < |acc|
      ensures Percent(acc[i].amount, Num(Total(acc))).Num?
      ensures 0.0 <= Percent(acc[i].amount, Num(Total(acc))).v <= 100.0
    {
      ElementAtMostSum(Amounts(acc), i);
      PercentRange(acc[i].amount, Total(acc));
    }
  }

  /** Non-negative consumption gives non-negative amounts */
  lemma AmountsNonNegative(data: seq<Reading>)
    requires NonNegative(Consumptions(data))
    ensures NonNegative(Amounts(Accumulate(data)))
  {
    var acc := Accumulate(data);
    forall i | 0 <= i < |acc|
      ensures 0.0 <= acc[i].amount
    {
      EntryIsDeviceSum(data, i);
      SumWhereNonNegative(data, acc[i].device);
    }
  }

  lemma {:induction false} SumWhereNonNegative(data: seq<Reading>, d: Device)
    requires NonNegative(Consumptions(data))
    ensures 0.0 <= SumWhere(data, d)
    decreases |data|
  {
    if |data| > 0 {
      var init := data[..|data| - 1];
      assert Consumptions(data)[|data| - 1] == data[|data| - 1].consumption;
      assert forall i :: 0 <= i < |init| ==> Consumptions(init)[i] == Consumptions(data)[i];
      SumWhereNonNegative(init, d);
    }
  }

  /** The `colors` array of `DonutChart` */
  const Palette: seq<string> := ["#3b82f6", "#8b5cf6", "#ec4899", "#f59e0b", "#10b981"]

  /** One drawn segment: its key, start and end angle in degrees, the SVG
      large-arc flag (true for '1') and its fill colour */
  datatype Arc = Arc(device: Device, start: JsNum, end: JsNum, largeArc: bool, color: string)

  /** `(segment.percentage / 100) * 360` */
  function Sweep(pct: JsNum): JsNum {
    Mul(Div(pct, Num(100.0)), Num(360.0))
  }

  /** `endAngle - startAngle <= 180 ? '0' : '1'`, true for '1' */
  function LargeArc(start: JsNum, end: JsNum): bool {
    !AtMost(Sub(end, start), Num(180.0))
  }

  /** The successive values of `currentAngle` in the `segments.map` loop of `DonutChart`,
      starting from `start`: one before each segment and one after the last */
  function Angles(segs: seq<Segment>, start: JsNum): (angles: seq<JsNum>)
    ensures |angles| == |segs| + 1
    ensures angles[0] == start
    decreases |segs|
  {
    if |segs| == 0 then [start]
    else [start] + Angles(segs[1..], Add(start, Sweep(segs[0].percentage)))
  }

  /** The arcs the `segments.map` loop of `DonutChart` draws, `currentAngle` starting at 0 */
  function Arcs(segs: seq<Segment>): (arcs: seq<Arc>)
    ensures |arcs| == |segs|
  {
    var angles := Angles(segs, Num(0.0));
    seq(|segs|, i requires 0 <= i < |segs| =>
      Arc(segs[i].device, angles[i], angles[i + 1], LargeArc(angles[i], angles[i + 1]), Palette[i % |Palette|]))
  }

  /** What `DonutChart({ data, title })` computes */
  datatype DonutView = DonutView(total: real, segments: seq<Segment>, arcs: seq<Arc>)

  function DrawDonut(data: seq<Reading>): DonutView {
    var acc := Accumulate(data);
    var segs := Segments(acc);
    DonutView(Total(acc), segs, Arcs(segs))
  }

  /** Each step of the loop adds the segment's sweep to `currentAngle` */
  lemma {:induction false} AnglesStep(segs: seq<Segment>, start: JsNum, i: nat)
    requires i < |segs|
    ensures Angles(segs, start)[i + 1] == Add(Angles(segs, start)[i], Sweep(segs[i].percentage))
    decreases i
  {
    var next := Add(start, Sweep(segs[0].percentage));
    var rest := Angles(segs[1..], next);
    if 0 < i {
      AnglesStep(segs[1..], next, i - 1);
      assert segs[i] == segs[1..][i - 1];
    }
  }

  /** The loop's arcs: the first starts at 0 degrees, each starts where the
      previous one ended and ends its own sweep further on; the flag follows
      the sweep and the colours cycle through the palette by position */
  lemma ArcsFollowLoop(segs: seq<Segment>)
    ensures var arcs := Arcs(segs);
            && (0 < |arcs| ==> arcs[0].start == Num(0.0))
            && (forall i :: 0 < i < |arcs| ==> arcs[i].start == arcs[i - 1].end)
            && (forall i :: 0 <= i < |arcs| ==>
                  && arcs[i].device == segs[i].device
                  && arcs[i].end == Add(arcs[i].start, Sweep(segs[i].percentage))
                  && arcs[i].largeArc == LargeArc(arcs[i].start, arcs[i].end)
                  && arcs[i].color == Palette[i % 5])
  {
    var arcs := Arcs(segs);
    var angles := Angles(segs, Num(0.0));
    forall i | 0 <= i < |arcs|
      ensures arcs[i].start == angles[i] && arcs[i].end == angles[i + 1]
      ensures arcs[i].end == Add(arcs[i].start, Sweep(segs[i].percentage))
    {
      AnglesStep(segs, Num(0.0), i);
    }
  }

  /** With finite percentages, `currentAngle` after `i` segments is the start
      angle plus 3.6 degrees per percent of those segments */
  lemma {:induction false} AnglesCumulative(segs: seq<Segment>, start: real, ps: seq<real>)
    requires |ps| == |segs|
    requires forall i :: 0 <= i < |segs| ==> segs[i].percentage == Num(ps[i])
    ensures var angles := Angles(segs, Num(start));
            forall i :: 0 <= i < |angles| ==> angles[i] == Num(start + Sum(ps[..i]) / 100.0 * 360.0)
    decreases |segs|
  {
    var angles := Angles(segs, Num(start));
    assert ps[..0] == [];
    if 0 < |segs| {
      var next := start + ps[0] / 100.0 * 360.0;
      var rest := Angles(segs[1..], Num(next));
      assert angles == [Num(start)] + rest;
      assert forall i :: 0 <= i < |segs| - 1 ==> segs[1..][i].percentage == Num(ps[1..][i]);
      AnglesCumulative(segs[1..], next, ps[1..]);
      forall i | 0 < i < |angles|
        ensures angles[i] == Num(start + Sum(ps[..i]) / 100.0 * 360.0)
      {
        assert angles[i] == rest[i - 1];
        SumPrefixCons(ps, i - 1);
      }
    }
  }

  /** Against a non-zero total the segments go once round the circle: the
      first starts at 0 degrees, each starts where the previous ended, and the
      last ends at 360 */
  lemma ArcsClose(acc: seq<DeviceTotal>)
    requires Total(acc) != 0.0
    ensures var arcs := Arcs(Segments(acc));
            && 0 < |arcs|
            && arcs[0].start == Num(0.0)
            && (forall i :: 0 < i < |arcs| ==> arcs[i].start == arcs[i - 1].end)
            && arcs[|arcs| - 1].end == Num(360.0)
  {
    var segs := Segments(acc);
    var ps := Shares(Amounts(acc), Total(acc));
    PercentagesMakeWhole(acc);
    ArcsFollowLoop(segs);
    AnglesCumulative(segs, 0.0, ps);
    assert ps[..|ps|] == ps;
  }

  /** When the readings' total is not zero the donut closes */
  lemma DonutCloses(data: seq<Reading>)
    requires Sum(Consumptions(data)) != 0.0
    ensures var arcs := DrawDonut(data).arcs;
            && 0 < |arcs|
            && arcs[0].start == Num(0.0)
            && (forall i :: 0 < i < |arcs| ==> arcs[i].start == arcs[i - 1].end)
            && arcs[|arcs| - 1].end == Num(360.0)
  {
    AccumulateTotal(data);
    ArcsClose(Accumulate(data));
  }

  /** The large-arc flag is '1' exactly when a finite sweep exceeds 180
      degrees; a NaN angle fails the `<= 180` test and also gives '1' */
  lemma LargeArcRule(start: JsNum, end: JsNum)
    ensures start.Num? && end.Num? ==> (LargeArc(start, end) <==> end.v - start.v > 180.0)
    ensures start.NaN? || end.NaN? ==> LargeArc(start, end)
  {
    NaNIsUnordered(Num(180.0));
  }

  /** Against a non-zero total a segment is drawn as a large arc exactly
      when its share is more than half */
  lemma LargeArcOverHalf(acc: seq<DeviceTotal>, i: nat)
    requires Total(acc) != 0.0
    requires i < |acc|
    ensures Arcs(Segments(acc))[i].largeArc <==> Shares(Amounts(acc), Total(acc))[i] > 50.0
  {
    var segs := Segments(acc);
    var ps := Shares(Amounts(acc), Total(acc));
    PercentagesMakeWhole(acc);
    AnglesStep(segs, Num(0.0), i);
    AnglesCumulative(segs, 0.0, ps);
    var angles := Angles(segs, Num(0.0));
    assert angles[i + 1] == Add(angles[i], Sweep(Num(ps[i])));
  }

  /** A table without repeats has as many keys as entries */
  lemma {:induction false} DistinctKeys(acc: seq<DeviceTotal>)
    requires Distinct(acc)
    ensures |Keys(acc)| == |acc|
    decreases |acc|
  {
    if 0 < |acc| {
      var rest := acc[1..];
      DistinctKeys(rest);
      assert Keys(acc) == {acc[0].device} + Keys(rest) by {
        forall e | e in Keys(acc) ensures e in {acc[0].device} + Keys(rest) {
          var i :| 0 <= i < |acc| && acc[i].device == e;
          if 0 < i {
            assert rest[i - 1].device == e;
          }
        }
        forall e | e in Keys(rest) ensures e in Keys(acc) {
          var i :| 0 <= i < |rest| && rest[i].device == e;
          assert acc[i + 1].device == e;
        }
      }
      assert acc[0].device !in Keys(rest);
    }
  }

  /** There are only five device types, so at most five segments */
  lemma AtMostFiveSegments(data: seq<Reading>)
    ensures |Accumulate(data)| <= |Devices| == |Palette|
  {
    var acc := Accumulate(data);
    AccumulateCorrect(data);
    DistinctKeys(acc);
    AtMostFiveDevices(Keys(acc));
  }

  /** The five palette colours are distinct */
  lemma PaletteDistinct(i: nat, j: nat)
    requires i < j < |Palette|
    ensures Palette[i] != Palette[j]
  {
    assert Palette[i][1] != Palette[j][1];
  }

  /** No two segments of a drawn donut share a colour: colours cycle
      through the palette by position and there are at most five segments */
  lemma ColoursDistinct(data: seq<Reading>)
    ensures var arcs := DrawDonut(data).arcs;
            && (forall i :: 0 <= i < |arcs| ==> arcs[i].color == Palette[i % 5])
            && (forall i, j :: 0 <= i < j < |arcs| ==> arcs[i].color != arcs[j].color)
  {
    AtMostFiveSegments(data);
    ArcColours(Segments(Accumulate(data)));
  }

  /** Up to five segments take one palette colour each, in order */
  lemma ArcColours(segs: seq<Segment>)
    requires |segs| <= |Palette|
    ensures var arcs := Arcs(segs);
            && (forall i :: 0 <= i < |arcs| ==> arcs[i].color == Palette[i % 5])
            && (forall i, j :: 0 <= i < j < |arcs| ==> arcs[i].color != arcs[j].color)
  {
    var arcs := Arcs(segs);
    forall i | 0 <= i < |arcs|
      ensures arcs[i].color == Palette[i % 5] == Palette[i]
    {
      assert i % 5 == i;
    }
    forall i, j | 0 <= i < j < |arcs|
      ensures arcs[i].color != arcs[j].color
    {
      PaletteDistinct(i, j);
    }
  }

  /** With every percentage NaN, every end angle is NaN and every segment is
      flagged as a large arc */
  lemma NaNArcs(segs: seq<Segment>)
    requires forall i :: 0 <= i < |segs| ==> segs[i].percentage.NaN?
    ensures var arcs := Arcs(segs);
            forall i :: 0 <= i < |arcs| ==> arcs[i].end.NaN? && arcs[i].largeArc
  {
    ArcsFollowLoop(segs);
  }

  /** A non-empty batch of zero readings has entries all holding zero */
  lemma ZeroBatchAmounts(data: seq<Reading>)
    requires 0 < |data|
    requires Constant(Consumptions(data), 0.0)
    ensures var acc := Accumulate(data);
            && Total(acc) == 0.0
            && 0 < |acc|
            && (forall i :: 0 <= i < |acc| ==> acc[i].amount == 0.0)
  {
    var acc := Accumulate(data);
    SumConstant(Consumptions(data), 0.0);
    AmountsNonNegative(data);
    AccumulateCorrect(data);
    assert data[0].device in DevicesIn(data);
    forall i | 0 <= i < |acc|
      ensures acc[i].amount == 0.0
    {
      ElementAtMostSum(Amounts(acc), i);
    }
  }

  /** A non-empty batch of zero readings has a zero total: every percentage
      is `0 / 0`, every end angle is NaN and every segment is flagged as a
      large arc */
  lemma ZeroBatchDonut(data: seq<Reading>)
    requires 0 < |data|
    requires Constant(Consumptions(data), 0.0)
    ensures var v := DrawDonut(data);
            && v.total == 0.0
            && 0 < |v.segments|
            && (forall i :: 0 <= i < |v.segments| ==> v.segments[i].percentage.NaN?)
            && (forall i :: 0 <= i < |v.arcs| ==> v.arcs[i].end.NaN? && v.arcs[i].largeArc)
  {
    var acc := Accumulate(data);
    var segs := Segments(acc);
    ZeroBatchAmounts(data);
    PercentOfNothing();
    assert forall i :: 0 <= i < |segs| ==> segs[i].percentage.NaN?;
    NaNArcs(segs);
  }
}

=== FILE: energy.dfy ===
/**
 The entities of the mock energy service: the reporting period and its shape,
 the device and location enumerations, and a reading. A timestamp is a whole
 number of hours on a fixed time line; `generateTimestamp(hoursAgo, base)` is
 the hour `hoursAgo` before `base`.
 */
module Energy {

  /** The period names the service recognises; any other name is `Unrecognised` */
  datatype Period = Daily | Weekly | Monthly | Yearly | Unrecognised

  function PeriodOf(name: string): (p: Period)
    ensures p == Daily <==> name == "daily"
    ensures p == Weekly <==> name == "weekly"
    ensures p == Monthly <==> name == "monthly"
    ensures p == Yearly <==> name == "yearly"
  {
    if name == "daily" then Daily
    else if name == "weekly" then Weekly
    else if name == "monthly" then Monthly
    else if name == "yearly" then Yearly
    else Unrecognised
  }

  /** How many readings a period has and how many hours apart they are */
  datatype Shape = Shape(points: nat, hoursPerPoint: nat) {
    /** Hours from the oldest reading to the base instant */
    function Span(): nat {
      points * hoursPerPoint
    }
  }

  /** The `switch (period)` table of `generateEnergyDataForPeriod` */
  function ShapeOf(p: Period): (s: Shape)
    ensures 0 < s.points && 0 < s.hoursPerPoint
  {
    match p
    case Daily => Shape(24, 1)
    case Weekly => Shape(7, 24)
    case Monthly => Shape(30, 24)
    case Yearly => Shape(12, 24 * 30)
    case Unrecognised => Shape(24, 1)
  }

  /** The table, keyed by the period's name as the service receives it */
  lemma PeriodTable(name: string)
    ensures name == "daily" ==> ShapeOf(PeriodOf(name)) == Shape(24, 1)
    ensures name == "weekly" ==> ShapeOf(PeriodOf(name)) == Shape(7, 24)
    ensures name == "monthly" ==> ShapeOf(PeriodOf(name)) == Shape(30, 24)
    ensures name == "yearly" ==> ShapeOf(PeriodOf(name)) == Shape(12, 720)
    ensures name !in {"daily", "weekly", "monthly", "yearly"} ==> ShapeOf(PeriodOf(name)) == Shape(24, 1)
  {
  }

  datatype Device = HVAC | Lighting | Appliances | Computing | Other

  /** The `devices` array, in source order */
  const Devices: seq<Device> := [HVAC, Lighting, Appliances, Computing, Other]

  /** There are only `|Devices|` device types, so no set of them is larger */
  lemma AtMostFiveDevices(ks: set<Device>)
    ensures |ks| <= |Devices|
  {
    var all: set<Device> := {HVAC, Lighting, Appliances, Computing, Other};
    assert ks <= all by {
      forall e | e in ks ensures e in all {
        assert e.HVAC? || e.Lighting? || e.Appliances? || e.Computing? || e.Other?;
      }
    }
    assert |all - ks| + |ks| == |all| by {
      assert (all - ks) + ks == all;
      assert (all - ks) * ks == {};
    }
  }

  datatype Location = BuildingA | BuildingB | BuildingC | ResidentialArea

  /** The `locations` array, in source order */
  const Locations: seq<Location> := [BuildingA, BuildingB, BuildingC, ResidentialArea]

  function LocationName(l: Location): string {
    match l
    case BuildingA => "Building A"
    case BuildingB => "Building B"
    case BuildingC => "Building C"
    case ResidentialArea => "Residential Area"
  }

  /** An hour on the time line */
  type Hour = int

  /** `generateTimestamp(hoursAgo, baseDate)` */
  function GenerateTimestamp(hoursAgo: int, base: Hour): (t: Hour)
    ensures t <= base <==> 0 <= hoursAgo
  {
    base - hoursAgo
  }

  /** Further back means earlier, and zero hours back is the base itself */
  lemma TimestampAntitone(a: int, b: int, base: Hour)
    requires a < b
    ensures GenerateTimestamp(b, base) < GenerateTimestamp(a, base)
    ensures GenerateTimestamp(0, base) == base
  {
  }

  datatype Reading = Reading(
    id: string,
    timestamp: Hour,
    consumption: real,
    prediction: real,
    device: Device,
    location: Location)

  /** `data.map(d => d.consumption)` */
  function Consumptions(data: seq<Reading>): (xs: seq<real>)
    ensures |xs| == |data|
    ensures forall i :: 0 <= i < |data| ==> xs[i] == data[i].consumption
  {
    seq(|data|, i requires 0 <= i < |data| => data[i].consumption)
  }

  /** `data.map(d => d.prediction)` */
  function Predictions(data: seq<Reading>): (xs: seq<real>)
    ensures |xs| == |data|
    ensures forall i :: 0 <= i < |data| ==> xs[i] == data[i].prediction
  {
    seq(|data|, i requires 0 <= i < |data| => data[i].prediction)
  }
}

=== FILE: generator.dfy ===
/**
 `generateEnergyDataForPeriod`: a batch of synthetic readings, oldest first.
 Each `Math.random()` call becomes an explicit draw in [0, 1), grouped per
 reading by the role it plays; the term `Math.sin((i / dataPoints) * 2π)` is
 supplied as `wave[i]`, a value in [-1, 1] that the model does not compute.
 */
module Generator {
  import opened Energy
  import opened Decimal
  import opened Arith

  /** A value `Math.random()` can return */
  predicate IsDraw(r: real) {
    0.0 <= r < 1.0
  }

  /** The draws one reading consumes, in the order the source makes them
      (`level` is unused for monthly and yearly, whose base level is constant) */
  datatype ReadingDraws = ReadingDraws(level: real, jitter: real, bias: real, device: real, location: real) {
    predicate Valid() {
      IsDraw(level) && IsDraw(jitter) && IsDraw(bias) && IsDraw(device) && IsDraw(location)
    }
  }

  /** `Math.floor(r * k)`: the index a draw picks from a `k`-element array */
  function Pick(r: real, k: nat): (i: nat)
    requires IsDraw(r) && 0 < k
    ensures i < k
    ensures (i as real) <= r * (k as real) < (i as real) + 1.0
  {
    assert 0.0 <= r * (k as real) < k as real;
    (r * (k as real)).Floor
  }

  /** `baseConsumption`: fixed for monthly and yearly, drawn from [50, 150) otherwise */
  function BaseConsumption(p: Period, level: real): real {
    if p == Yearly then 3000.0
    else if p == Monthly then 1500.0
    else 50.0 + level * 100.0
  }

  /** The unclamped `consumption` of `generateEnergyDataForPeriod`: base, cyclic variation and jitter */
  function RawConsumption(base: real, wave: real, jitter: real): real {
    base + wave * (base * 0.3) + (jitter - 0.5) * (base * 0.2)
  }

  /** `Math.max(0, x)` */
  function ClampAtZero(x: real): (r: real)
    ensures 0.0 <= r
    ensures x <= r
    ensures r == x || r == 0.0
  {
    if x > 0.0 then x else 0.0
  }

  /** The id of reading `i` */
  function EnergyId(i: nat): string {
    "energy-" + Show(i)
  }

  /** Reading `i` of a batch for period `p` */
  function MakeReading(p: Period, base: Hour, i: nat, d: ReadingDraws, wave: real): (r: Reading)
    requires d.Valid()
    requires i < ShapeOf(p).points
    ensures 0.0 <= r.consumption
    ensures r.device == PickedDevice(d) && r.location == PickedLocation(d)
  {
    var shape := ShapeOf(p);
    var raw := RawConsumption(BaseConsumption(p, d.level), wave, d.jitter);
    Reading(
      EnergyId(i),
      GenerateTimestamp((shape.points - i) * shape.hoursPerPoint, base),
      ClampAtZero(raw),
      raw + (d.bias - 0.3) * (raw * 0.1),
      PickedDevice(d),
      PickedLocation(d))
  }

  /** `devices[Math.floor(Math.random() * devices.length)]` */
  function PickedDevice(d: ReadingDraws): Device
    requires d.Valid()
  {
    Devices[Pick(d.device, |Devices|)]
  }

  /** `locations[Math.floor(Math.random() * locations.length)]` */
  function PickedLocation(d: ReadingDraws): Location
    requires d.Valid()
  {
    Locations[Pick(d.location, |Locations|)]
  }

  /** Reading `i` lies `(points - i) * hoursPerPoint` hours before the base */
  lemma ReadingHour(p: Period, base: Hour, i: nat, d: ReadingDraws, wave: real)
    requires d.Valid()
    requires i < ShapeOf(p).points
    ensures MakeReading(p, base, i, d, wave).timestamp
            == base - (ShapeOf(p).points - i) * ShapeOf(p).hoursPerPoint
  {
  }

  /** `generateEnergyDataForPeriod(period, baseDate)` */
  function GenerateEnergyData(p: Period, base: Hour, draws: seq<ReadingDraws>, wave: seq<real>): (rs: seq<Reading>)
    requires |draws| == ShapeOf(p).points && |wave| == ShapeOf(p).points
    requires forall i :: 0 <= i < |draws| ==> draws[i].Valid()
    ensures |rs| == ShapeOf(p).points
    ensures forall i :: 0 <= i < |rs| ==> rs[i].id == EnergyId(i)
    ensures forall i :: 0 <= i < |rs| ==> 0.0 <= rs[i].consumption
    ensures forall i :: 0 <= i < |rs| ==> rs[i] == MakeReading(p, base, i, draws[i], wave[i])
    ensures forall i :: 0 <= i < |rs| ==>
              rs[i].device == PickedDevice(draws[i]) && rs[i].location == PickedLocation(draws[i])
  {
    seq(|draws|, i requires 0 <= i < |draws| => MakeReading(p, base, i, draws[i], wave[i]))
  }

  /** `(n - i) * h` shrinks as `i` grows */
  lemma HoursAgoDecrease(n: int, h: int, i: int, j: int)
    requires 0 < h && i < j
    ensures (n - j) * h < (n - i) * h
  {
    assert (n - i) * h == (n - j) * h + (j - i) * h;
  }

  /** Readings come oldest first, the newest `hoursPerPoint` before the base and
      the oldest a whole span before it */
  lemma OldestFirst(p: Period, base: Hour, draws: seq<ReadingDraws>, wave: seq<real>)
    requires |draws| == ShapeOf(p).points && |wave| == ShapeOf(p).points
    requires forall i :: 0 <= i < |draws| ==> draws[i].Valid()
    ensures var rs := GenerateEnergyData(p, base, draws, wave);
            && (forall i, j :: 0 <= i < j < |rs| ==> rs[i].timestamp < rs[j].timestamp)
            && rs[0].timestamp == base - ShapeOf(p).Span()
            && rs[|rs| - 1].timestamp == base - ShapeOf(p).hoursPerPoint
  {
    var rs := GenerateEnergyData(p, base, draws, wave);
    var n, h := ShapeOf(p).points, ShapeOf(p).hoursPerPoint;
    forall i, j | 0 <= i < j < |rs|
      ensures rs[i].timestamp < rs[j].timestamp
    {
      BatchHour(p, base, draws, wave, i);
      BatchHour(p, base, draws, wave, j);
      HoursAgoDecrease(n, h, i, j);
    }
    BatchHour(p, base, draws, wave, 0);
    BatchHour(p, base, draws, wave, n - 1);
  }

  /** `ReadingHour` for reading `i` of a whole batch */
  lemma BatchHour(p: Period, base: Hour, draws: seq<ReadingDraws>, wave: seq<real>, i: nat)
    requires |draws| == ShapeOf(p).points && |wave| == ShapeOf(p).points
    requires forall i :: 0 <= i < |draws| ==> draws[i].Valid()
    requires i < |draws|
    ensures GenerateEnergyData(p, base, draws, wave)[i].timestamp
            == base - (ShapeOf(p).points - i) * ShapeOf(p).hoursPerPoint
  {
    assert GenerateEnergyData(p, base, draws, wave)[i] == MakeReading(p, base, i, draws[i], wave[i]);
    ReadingHour(p, base, i, draws[i], wave[i]);
  }

  /** No two readings of a batch share an id */
  lemma IdsDistinct(p: Period, base: Hour, draws: seq<ReadingDraws>, wave: seq<real>)
    requires |draws| == ShapeOf(p).points && |wave| == ShapeOf(p).points
    requires forall i :: 0 <= i < |draws| ==> draws[i].Valid()
    ensures var rs := GenerateEnergyData(p, base, draws, wave);
            forall i, j :: 0 <= i < |rs| && 0 <= j < |rs| && rs[i].id == rs[j].id ==> i == j
  {
    var rs := GenerateEnergyData(p, base, draws, wave);
    forall i, j | 0 <= i < |rs| && 0 <= j < |rs| && rs[i].id == rs[j].id
      ensures i == j
    {
      PrefixedShowInjective("energy-", i, j);
    }
  }

  /** The base level of a period: fixed, or drawn from [50, 150) */
  lemma BaseConsumptionRange(p: Period, level: real)
    requires IsDraw(level)
    ensures p == Yearly ==> BaseConsumption(p, level) == 3000.0
    ensures p == Monthly ==> BaseConsumption(p, level) == 1500.0
    ensures p !in {Yearly, Monthly} ==> 50.0 <= BaseConsumption(p, level) < 150.0
  {
  }

  /** The raw consumption is the base level scaled by a factor in [0.6, 1.4) */
  lemma RawWithinBase(b: real, wave: real, jitter: real)
    requires 0.0 < b
    requires -1.0 <= wave <= 1.0 && IsDraw(jitter)
    ensures 0.6 * b <= RawConsumption(b, wave, jitter) < 1.4 * b
  {
    var f := 1.0 + 0.3 * wave + 0.2 * (jitter - 0.5);
    assert 0.6 <= f < 1.4;
    assert RawConsumption(b, wave, jitter) == b * f by {
      assert wave * (b * 0.3) == b * (0.3 * wave);
      assert (jitter - 0.5) * (b * 0.2) == b * (0.2 * (jitter - 0.5));
    }
    ScaleAtMost(b, 0.6, f);
    ScaleStrict(b, f, 1.4);
  }

  /** The prediction is the raw consumption scaled by a factor in [0.97, 1.07) */
  lemma PredictionNearRaw(raw: real, bias: real)
    requires 0.0 < raw && IsDraw(bias)
    ensures 0.97 * raw <= raw + (bias - 0.3) * (raw * 0.1) < 1.07 * raw
  {
    var f := 0.97 + 0.1 * bias;
    assert raw + (bias - 0.3) * (raw * 0.1) == raw * f;
    ScaleAtMost(raw, 0.97, f);
    ScaleStrict(raw, f, 1.07);
  }

  /** With a true sine value the raw consumption stays within [0.6, 1.4) of the
      base level, so the clamp at zero never fires, and the prediction lies
      within [0.97, 1.07) of the consumption */
  lemma ClampInactive(p: Period, base: Hour, i: nat, d: ReadingDraws, wave: real)
    requires d.Valid()
    requires i < ShapeOf(p).points
    requires -1.0 <= wave <= 1.0
    ensures var b := BaseConsumption(p, d.level);
            var r := MakeReading(p, base, i, d, wave);
            && r.consumption == RawConsumption(b, wave, d.jitter)
            && 0.6 * b <= r.consumption < 1.4 * b
            && 0.97 * r.consumption <= r.prediction < 1.07 * r.consumption
  {
    var b := BaseConsumption(p, d.level);
    assert 50.0 <= b;
    RawWithinBase(b, wave, d.jitter);
    PredictionNearRaw(RawConsumption(b, wave, d.jitter), d.bias);
  }
}

=== FILE: js_number.dfy ===
/**
 The values a JavaScript number can take, as far as this dashboard needs them.
 A finite value is an exact real (IEEE rounding and the sign of zero are not
 modelled); division by zero and the empty `Math.max()` / `Math.min()` produce
 the non-finite values, which then propagate through arithmetic and make every
 ordered comparison false, as in JavaScript.
 */
module JsNumber {

  datatype JsNum = Num(v: real) | NaN | Inf(positive: bool) {

    /** True for an ordinary (finite) number */
    predicate IsFinite() {
      Num?
    }
  }

  const PosInf: JsNum := Inf(true)
  const NegInf: JsNum := Inf(false)

  function Neg(x: JsNum): (r: JsNum)
    ensures x.Num? <==> r.Num?
    ensures x.NaN? <==> r.NaN?
  {
    match x
    case Num(a) => Num(-a)
    case NaN => NaN
    case Inf(p) => Inf(!p)
  }

  /** `x + y`: opposite infinities give NaN */
  function Add(x: JsNum, y: JsNum): (r: JsNum)
    ensures x.Num? && y.Num? ==> r == Num(x.v + y.v)
    ensures x.NaN? || y.NaN? ==> r.NaN?
  {
    match (x, y)
    case (NaN, _) => NaN
    case (_, NaN) => NaN
    case (Inf(a), Inf(b)) => if a == b then x else NaN
    case (Inf(_), Num(_)) => x
    case (Num(_), Inf(_)) => y
    case (Num(a), Num(b)) => Num(a + b)
  }

  /** `x - y` */
  function Sub(x: JsNum, y: JsNum): (r: JsNum)
    ensures x.Num? && y.Num? ==> r == Num(x.v - y.v)
    ensures x.NaN? || y.NaN? ==> r.NaN?
  {
    Add(x, Neg(y))
  }

  /** `x * y`: an infinity times zero gives NaN */
  function Mul(x: JsNum, y: JsNum): (r: JsNum)
    ensures x.Num? && y.Num? ==> r == Num(x.v * y.v)
    ensures x.NaN? || y.NaN? ==> r.NaN?
  {
    match (x, y)
    case (NaN, _) => NaN
    case (_, NaN) => NaN
    case (Inf(a), Inf(b)) => Inf(a == b)
    case (Inf(a), Num(b)) => if b == 0.0 then NaN else Inf(a == (b > 0.0))
    case (Num(a), Inf(b)) => if a == 0.0 then NaN else Inf(b == (a > 0.0))
    case (Num(_), Num(_)) => Num(x.v * y.v)
  }

  /** `x / y`: a non-zero number over zero is an infinity, zero over zero is NaN */
  function Div(x: JsNum, y: JsNum): (r: JsNum)
    ensures x.Num? && y.Num? && y.v != 0.0 ==> r == Num(x.v / y.v)
    ensures x.Num? && y == Num(0.0) ==> (r.NaN? <==> x.v == 0.0)
    ensures x.NaN? || y.NaN? ==> r.NaN?
  {
    match (x, y)
    case (NaN, _) => NaN
    case (_, NaN) => NaN
    case (Inf(_), Inf(_)) => NaN
    case (Inf(a), Num(b)) => if b == 0.0 then x else Inf(a == (b > 0.0))
    case (Num(_), Inf(_)) => Num(0.0)
    case (Num(a), Num(b)) =>
      if b != 0.0 then Num(a / b)
      else if a == 0.0 then NaN
      else Inf(a > 0.0)
  }

  /** `x < y`: false whenever either side is NaN */
  predicate Less(x: JsNum, y: JsNum)
    ensures x.NaN? || y.NaN? ==> !Less(x, y)
    ensures x.Num? && y.Num? ==> (Less(x, y) <==> x.v < y.v)
  {
    match (x, y)
    case (NaN, _) => false
    case (_, NaN) => false
    case (Num(a), Num(b)) => a < b
    case (Inf(a), Inf(b)) => !a && b
    case (Inf(a), Num(_)) => !a
    case (Num(_), Inf(b)) => b
  }

  /** `x > y` */
  predicate Greater(x: JsNum, y: JsNum) {
    Less(y, x)
  }

  /** `x <= y`: also false whenever either side is NaN */
  predicate AtMost(x: JsNum, y: JsNum)
    ensures x.NaN? || y.NaN? ==> !AtMost(x, y)
    ensures x.Num? && y.Num? ==> (AtMost(x, y) <==> x.v <= y.v)
  {
    Less(x, y) || (x == y && !x.NaN?)
  }

  /** Every ordered comparison with NaN is false, so `x <= y` is not `!(y < x)` */
  lemma NaNIsUnordered(x: JsNum)
    ensures !Less(x, NaN) && !Less(NaN, x) && !AtMost(x, NaN) && !AtMost(NaN, x)
  {
  }
}

=== FILE: line_chart.dfy ===
/**
 The geometry of the `LineChart` component: one scale for both series (the
 smallest and largest of consumption and prediction), the consumption and
 prediction paths, the shaded region under the consumption path, and the
 thinned time labels.
 */
module LineChart {
  import opened JsNumber
  import opened Series
  import opened Energy
  import opened Plot

  /** `Math.ceil(data.length / 6)`: aim for six labels */
  const LabelTarget: nat := 6

  /** `Math.max(d.consumption, d.prediction)` for each reading */
  function Highs(data: seq<Reading>): (xs: seq<real>)
    ensures |xs| == |data|
    ensures forall i :: 0 <= i < |data| ==> data[i].consumption <= xs[i] && data[i].prediction <= xs[i]
    ensures forall i :: 0 <= i < |data| ==> xs[i] == data[i].consumption || xs[i] == data[i].prediction
  {
    seq(|data|, i requires 0 <= i < |data| =>
      if data[i].consumption >= data[i].prediction then data[i].consumption else data[i].prediction)
  }

  /** `Math.min(d.consumption, d.prediction)` for each reading */
  function Lows(data: seq<Reading>): (xs: seq<real>)
    ensures |xs| == |data|
    ensures forall i :: 0 <= i < |data| ==> xs[i] <= data[i].consumption && xs[i] <= data[i].prediction
    ensures forall i :: 0 <= i < |data| ==> xs[i] == data[i].consumption || xs[i] == data[i].prediction
  {
    seq(|data|, i requires 0 <= i < |data| =>
      if data[i].consumption <= data[i].prediction then data[i].consumption else data[i].prediction)
  }

  /** `minValue` and `maxValue` of `LineChart` */
  function LineScale(data: seq<Reading>): Scale {
    Scale(MinOf(Lows(data)), MaxOf(Highs(data)))
  }

  datatype LineChartView = LineChartView(
    consumptionPath: seq<Token>,
    predictionPath: seq<Token>,
    fill: seq<Token>,
    labels: seq<nat>)

  /** What `LineChart({ data })` draws */
  function DrawLineChart(data: seq<Reading>): LineChartView {
    var sc := LineScale(data);
    var consumptionPath := CreatePath(Consumptions(data), sc);
    LineChartView(
      consumptionPath,
      CreatePath(Predictions(data), sc),
      FillPath(consumptionPath),
      Labelled(|data|, LabelStride(|data|, LabelTarget)))
  }

  /** The scale spans every plotted value of both series, and both its ends are
      values that occur; without data it is (+Infinity, -Infinity) */
  lemma ScaleCoversBothSeries(data: seq<Reading>)
    ensures |data| == 0 ==> LineScale(data) == Scale(PosInf, NegInf)
    ensures 0 < |data| ==> (
              var sc := LineScale(data);
              && sc.lo.Num? && sc.hi.Num?
              && (forall i :: 0 <= i < |data| ==>
                    && sc.lo.v <= data[i].consumption <= sc.hi.v
                    && sc.lo.v <= data[i].prediction <= sc.hi.v)
              && (exists i :: 0 <= i < |data| && (sc.hi.v == data[i].consumption || sc.hi.v == data[i].prediction))
              && (exists i :: 0 <= i < |data| && (sc.lo.v == data[i].consumption || sc.lo.v == data[i].prediction)))
  {
    if 0 < |data| {
      var hs, ls := Highs(data), Lows(data);
      var hi, lo := Largest(hs), Smallest(ls);
      forall i | 0 <= i < |data|
        ensures lo <= data[i].consumption <= hi && lo <= data[i].prediction <= hi
      {
        assert hs[i] <= hi && lo <= ls[i];
      }
      var a :| 0 <= a < |hs| && hs[a] == hi;
      var b :| 0 <= b < |ls| && ls[b] == lo;
    }
  }

  /** Both columns lie within the scale's finite bounds */
  lemma ColumnsWithinScale(data: seq<Reading>)
    requires 0 < |data|
    ensures var sc := LineScale(data);
            var cs, ps := Consumptions(data), Predictions(data);
            && sc.lo.Num? && sc.hi.Num?
            && (forall i :: 0 <= i < |cs| ==> sc.lo.v <= cs[i] <= sc.hi.v)
            && (forall i :: 0 <= i < |ps| ==> sc.lo.v <= ps[i] <= sc.hi.v)
  {
    ScaleCoversBothSeries(data);
  }

  /** The vertices of the drawn paths: one point per reading for each line,
      and the consumption points followed by the two bottom corners for the
      shaded region */
  lemma LineChartVertices(data: seq<Reading>)
    ensures var v := DrawLineChart(data);
            var sc := LineScale(data);
            && Vertices(v.consumptionPath) == Points(Consumptions(data), sc)
            && Vertices(v.predictionPath) == Points(Predictions(data), sc)
            && Vertices(v.fill) == Points(Consumptions(data), sc) + Corners
  {
    var sc := LineScale(data);
    var v := DrawLineChart(data);
    assert v.consumptionPath == CreatePath(Consumptions(data), sc);
    assert v.predictionPath == CreatePath(Predictions(data), sc);
    assert v.fill == FillPath(v.consumptionPath);
    PathShape(Consumptions(data), sc);
    PathShape(Predictions(data), sc);
    FillVertices(v.consumptionPath);
  }

  /** With two or more readings and a non-degenerate scale, both lines stay
      inside the viewport, one point per reading, running from the left edge
      to the right edge */
  lemma LinesInViewport(data: seq<Reading>)
    requires 2 <= |data|
    requires Less(LineScale(data).lo, LineScale(data).hi)
    ensures var v := DrawLineChart(data);
            var cv, pv := Vertices(v.consumptionPath), Vertices(v.predictionPath);
            && |cv| == |data| && |pv| == |data|
            && AllInViewport(cv) && AllInViewport(pv)
            && cv[0].x == Num(0.0) && cv[|cv| - 1].x == Num(100.0)
            && pv[0].x == Num(0.0) && pv[|pv| - 1].x == Num(100.0)
  {
    ConsumptionLineInViewport(data);
    PredictionLineInViewport(data);
  }

  /** The consumption half of `LinesInViewport` */
  lemma ConsumptionLineInViewport(data: seq<Reading>)
    requires 2 <= |data|
    requires Less(LineScale(data).lo, LineScale(data).hi)
    ensures var cv := Vertices(DrawLineChart(data).consumptionPath);
            && |cv| == |data| && AllInViewport(cv)
            && cv[0].x == Num(0.0) && cv[|cv| - 1].x == Num(100.0)
  {
    LineChartVertices(data);
    var sc := LineScale(data);
    ColumnsWithinScale(data);
    PointsInViewport(Consumptions(data), sc.lo.v, sc.hi.v);
  }

  /** The prediction half of `LinesInViewport` */
  lemma PredictionLineInViewport(data: seq<Reading>)
    requires 2 <= |data|
    requires Less(LineScale(data).lo, LineScale(data).hi)
    ensures var pv := Vertices(DrawLineChart(data).predictionPath);
            && |pv| == |data| && AllInViewport(pv)
            && pv[0].x == Num(0.0) && pv[|pv| - 1].x == Num(100.0)
  {
    LineChartVertices(data);
    var sc := LineScale(data);
    ColumnsWithinScale(data);
    PointsInViewport(Predictions(data), sc.lo.v, sc.hi.v);
  }

  /** Under the same conditions the shaded region stays inside the viewport */
  lemma FillInViewport(data: seq<Reading>)
    requires 2 <= |data|
    requires Less(LineScale(data).lo, LineScale(data).hi)
    ensures AllInViewport(Vertices(DrawLineChart(data).fill))
  {
    LineChartVertices(data);
    var sc := LineScale(data);
    ColumnsWithinScale(data);
    PointsInViewport(Consumptions(data), sc.lo.v, sc.hi.v);
    CornersInViewport(Points(Consumptions(data), sc));
  }

  /** A lone reading's x-coordinate is 0/0 */
  lemma LoneReadingHasNoX(data: seq<Reading>)
    requires |data| == 1
    ensures Vertices(DrawLineChart(data).consumptionPath) == [Point(NaN, GetY(LineScale(data), data[0].consumption))]
  {
    LineChartVertices(data);
    XAtProperties(0, 0, 1);
  }

  /** A batch whose values are all equal has a zero range, so every
      y-coordinate of the consumption line is 0/0 */
  lemma FlatBatchHasNoY(data: seq<Reading>)
    requires 0 < |data|
    requires LineScale(data).lo == LineScale(data).hi
    ensures var cv := Vertices(DrawLineChart(data).consumptionPath);
            forall i :: 0 <= i < |cv| ==> cv[i].y.NaN?
  {
    LineChartVertices(data);
    ColumnsWithinScale(data);
    FlatPoints(Consumptions(data), LineScale(data));
  }

  /** About six labels: the first reading is labelled, labels fall exactly on
      multiples of `ceil(n / 6)`, and there are at most six */
  lemma LineChartLabels(data: seq<Reading>)
    ensures var ls := DrawLineChart(data).labels;
            var s := LabelStride(|data|, LabelTarget);
            && (0 < |data| ==> 0 in ls)
            && (forall i :: 0 <= i < |data| ==> (i in ls <==> i % s == 0))
            && |ls| <= 6
  {
    var v := DrawLineChart(data);
    assert v.labels == Labelled(|data|, LabelStride(|data|, LabelTarget));
    LabelThinning(|data|, LabelTarget);
  }
}

=== FILE: plot.dfy ===
/**
 The plotting arithmetic the line and area charts share (each component
 carries its own copy of `getY` and `createPath`), and the label thinning all
 three time-series charts use. Charts draw into a 0-100 viewport: x runs left
 to right over the point indices, y runs top (the maximum) to bottom (the
 minimum). A path is kept as the list of SVG path tokens its string spells,
 `M x0,y0 L x1,y1 ...`, with each `x,y` pair as one token.
 */
module Plot {
  import opened JsNumber
  import opened Arith

  datatype Point = Point(x: JsNum, y: JsNum)

  /** The `minValue` / `maxValue` a chart scales against */
  datatype Scale = Scale(lo: JsNum, hi: JsNum) {
    /** `range = maxValue - minValue` */
    function Range(): JsNum {
      Sub(hi, lo)
    }
  }

  /** `getY(value) = 100 - ((value - minValue) / range) * 100` */
  function GetY(sc: Scale, v: real): JsNum {
    Sub(Num(100.0), Mul(Div(Sub(Num(v), sc.lo), sc.Range()), Num(100.0)))
  }

  /** The value a finite y-coordinate stands for on a finite scale: the inverse of `GetY` */
  function ValueAt(lo: real, hi: real, y: real): real {
    lo + (100.0 - y) / 100.0 * (hi - lo)
  }

  /** `(index / (values.length - 1)) * 100` */
  function XAt(i: nat, n: nat): JsNum {
    Mul(Div(Num(i as real), Num((n as real) - 1.0)), Num(100.0))
  }

  /** The index a finite x-coordinate stands for: the inverse of `XAt` */
  function IndexAt(x: real, n: nat): real {
    x / 100.0 * ((n as real) - 1.0)
  }

  /** On a finite scale with positive range `getY` is finite */
  lemma GetYFinite(lo: real, hi: real, v: real)
    requires lo < hi
    ensures GetY(Scale(Num(lo), Num(hi)), v) == Num(100.0 - (v - lo) / (hi - lo) * 100.0)
  {
  }

  /** `getY` sends the minimum to the bottom edge and the maximum to the top edge */
  lemma GetYEnds(lo: real, hi: real)
    requires lo < hi
    ensures GetY(Scale(Num(lo), Num(hi)), lo) == Num(100.0)
    ensures GetY(Scale(Num(lo), Num(hi)), hi) == Num(0.0)
  {
    var r := hi - lo;
    GetYFinite(lo, hi, lo);
    GetYFinite(lo, hi, hi);
    DivSelf(r);
    assert 100.0 - (hi - lo) / r * 100.0 == 0.0;
    assert (lo - lo) / r == 0.0;
  }

  /** `ValueAt` undoes `getY` */
  lemma GetYInverse(lo: real, hi: real, v: real)
    requires lo < hi
    ensures GetY(Scale(Num(lo), Num(hi)), v).Num?
    ensures ValueAt(lo, hi, GetY(Scale(Num(lo), Num(hi)), v).v) == v
  {
    var r := hi - lo;
    GetYFinite(lo, hi, v);
    DivCancel(v - lo, r);
    assert ValueAt(lo, hi, 100.0 - (v - lo) / r * 100.0) == lo + (v - lo) / r * r;
  }

  /** A larger value is drawn strictly higher (smaller y) */
  lemma GetYDecreasing(lo: real, hi: real, v: real, w: real)
    requires lo < hi && v < w
    ensures GetY(Scale(Num(lo), Num(hi)), w).v < GetY(Scale(Num(lo), Num(hi)), v).v
  {
    GetYFinite(lo, hi, v);
    GetYFinite(lo, hi, w);
    DivStrict(v - lo, w - lo, hi - lo);
  }

  /** Values of the scale land inside the viewport */
  lemma GetYInViewport(lo: real, hi: real, v: real)
    requires lo < hi && lo <= v <= hi
    ensures 0.0 <= GetY(Scale(Num(lo), Num(hi)), v).v <= 100.0
  {
    GetYFinite(lo, hi, v);
    DivAtMost(0.0, v - lo, hi - lo);
    DivAtMost(v - lo, hi - lo, hi - lo);
    DivSelf(hi - lo);
  }

  /** On a degenerate scale (minimum equals maximum) `getY` of the one value
      present is 0/0, so every y-coordinate of the path is NaN */
  lemma GetYOnFlatScale(c: real)
    ensures GetY(Scale(Num(c), Num(c)), c).NaN?
  {
  }

  /** Values confined to a degenerate scale all plot with a NaN y-coordinate */
  lemma FlatPoints(values: seq<real>, sc: Scale)
    requires sc.lo.Num? && sc.lo == sc.hi
    requires forall i :: 0 <= i < |values| ==> sc.lo.v <= values[i] <= sc.hi.v
    ensures forall i :: 0 <= i < |values| ==> Points(values, sc)[i].y.NaN?
  {
    forall i | 0 <= i < |values|
      ensures Points(values, sc)[i].y.NaN?
    {
      assert values[i] == sc.lo.v;
      GetYOnFlatScale(values[i]);
    }
  }

  /** With two or more points `XAt` is finite */
  lemma XAtFinite(i: nat, n: nat)
    requires 2 <= n
    ensures XAt(i, n) == Num((i as real) / ((n as real) - 1.0) * 100.0)
  {
  }

  /** With two or more points x runs from 0 to 100, strictly increasing, and
      `IndexAt` recovers the index; a lone point's x is 0/0 */
  lemma XAtProperties(i: nat, j: nat, n: nat)
    ensures n == 1 ==> XAt(0, n).NaN?
    ensures 2 <= n ==> XAt(0, n) == Num(0.0) && XAt(n - 1, n) == Num(100.0)
    ensures 2 <= n && i < n ==> XAt(i, n).Num? && 0.0 <= XAt(i, n).v <= 100.0
    ensures 2 <= n && i < n ==> IndexAt(XAt(i, n).v, n) == i as real
    ensures 2 <= n && i < j < n ==> XAt(i, n).v < XAt(j, n).v
  {
    if 2 <= n {
      XAtFinite(0, n);
      XAtFinite(n - 1, n);
      XAtFinite(i, n);
      XAtFinite(j, n);
      XAtIndex(i, n);
      if i < j {
        DivStrict(i as real, j as real, (n as real) - 1.0);
      }
      if i < n {
        DivAtMost(0.0, i as real, (n as real) - 1.0);
        DivAtMost(i as real, (n as real) - 1.0, (n as real) - 1.0);
      }
    }
  }

  /** `IndexAt` undoes `XAt` */
  lemma XAtIndex(i: nat, n: nat)
    requires 2 <= n
    ensures IndexAt(XAt(i, n).v, n) == i as real
  {
    var d := (n as real) - 1.0;
    XAtFinite(i, n);
    DivCancel(i as real, d);
    assert IndexAt((i as real) / d * 100.0, n) == (i as real) / d * d;
  }

  /** The point plotted for each value, in order */
  function Points(values: seq<real>, sc: Scale): (ps: seq<Point>)
    ensures |ps| == |values|
    ensures forall i :: 0 <= i < |ps| ==> ps[i] == Point(XAt(i, |values|), GetY(sc, values[i]))
  {
    seq(|values|, i requires 0 <= i < |values| => Point(XAt(i, |values|), GetY(sc, values[i])))
  }

  /** A point with finite coordinates inside the 0-100 viewport */
  predicate InViewport(p: Point) {
    && p.x.Num? && p.y.Num?
    && 0.0 <= p.x.v <= 100.0
    && 0.0 <= p.y.v <= 100.0
  }

  /** Every point of `ps` is inside the viewport */
  predicate AllInViewport(ps: seq<Point>) {
    forall i :: 0 <= i < |ps| ==> InViewport(ps[i])
  }

  /** The two bottom corners a shaded region closes through */
  const Corners: seq<Point> := [Point(Num(100.0), Num(100.0)), Point(Num(0.0), Num(100.0))]

  /** Closing through the corners keeps a region inside the viewport */
  lemma CornersInViewport(ps: seq<Point>)
    requires AllInViewport(ps)
    ensures AllInViewport(ps + Corners)
  {
    var qs := ps + Corners;
    forall i | 0 <= i < |qs|
      ensures InViewport(qs[i])
    {
      if i < |ps| {
        assert qs[i] == ps[i];
      } else {
        assert qs[i] == Corners[i - |ps|];
      }
    }
  }

  /** With two or more values, all on a non-degenerate finite scale, every
      plotted point is finite and inside the viewport; the first is on the
      left edge and the last on the right edge */
  lemma PointsInViewport(values: seq<real>, lo: real, hi: real)
    requires lo < hi && 2 <= |values|
    requires forall i :: 0 <= i < |values| ==> lo <= values[i] <= hi
    ensures var ps := Points(values, Scale(Num(lo), Num(hi)));
            && AllInViewport(ps)
            && ps[0].x == Num(0.0) && ps[|ps| - 1].x == Num(100.0)
  {
    var ps := Points(values, Scale(Num(lo), Num(hi)));
    forall i | 0 <= i < |ps|
      ensures InViewport(ps[i])
    {
      XAtProperties(i, i, |values|);
      GetYFinite(lo, hi, values[i]);
      GetYInViewport(lo, hi, values[i]);
    }
    XAtProperties(0, 0, |values|);
  }

  /** On a non-degenerate scale a value at the low end is plotted on the
      bottom edge and one at the high end on the top edge */
  lemma PointAtEnds(values: seq<real>, sc: Scale, k: nat)
    requires sc.lo.Num? && sc.hi.Num? && sc.lo.v < sc.hi.v
    requires k < |values|
    ensures values[k] == sc.lo.v ==> Points(values, sc)[k].y == Num(100.0)
    ensures values[k] == sc.hi.v ==> Points(values, sc)[k].y == Num(0.0)
  {
    GetYEnds(sc.lo.v, sc.hi.v);
  }

  /** On a non-degenerate scale whose two ends are values of the series, some
      point lies on the bottom edge and some point on the top edge */
  lemma ExtremesTouchEdges(values: seq<real>, sc: Scale)
    requires sc.lo.Num? && sc.hi.Num? && sc.lo.v < sc.hi.v
    requires exists k :: 0 <= k < |values| && values[k] == sc.lo.v
    requires exists k :: 0 <= k < |values| && values[k] == sc.hi.v
    ensures exists k :: 0 <= k < |values| && Points(values, sc)[k].y == Num(100.0)
    ensures exists k :: 0 <= k < |values| && Points(values, sc)[k].y == Num(0.0)
  {
    var a :| 0 <= a < |values| && values[a] == sc.lo.v;
    var b :| 0 <= b < |values| && values[b] == sc.hi.v;
    PointAtEnds(values, sc, a);
    PointAtEnds(values, sc, b);
  }

  /** The tokens of an SVG path string */
  datatype Token = M | L | Z | Pair(p: Point)

  /** `points.join(' L ')`: the pairs with an `L` between neighbours */
  function Joined(ps: seq<Point>): (ts: seq<Token>)
    ensures |ps| == 0 ==> ts == []
    ensures 0 < |ps| ==> |ts| == 2 * |ps| - 1
    ensures forall k :: 0 <= k < |ps| ==> ts[2 * k] == Pair(ps[k])
    ensures forall k :: 0 < k < |ps| ==> ts[2 * k - 1] == L
    decreases |ps|
  {
    if |ps| == 0 then []
    else if |ps| == 1 then [Pair(ps[0])]
    else Joined(ps[..|ps| - 1]) + [L, Pair(ps[|ps| - 1])]
  }

  /** `createPath(values)`: `M ` followed by the joined points */
  function CreatePath(values: seq<real>, sc: Scale): seq<Token> {
    [M] + Joined(Points(values, sc))
  }

  /** The closed region under a path: `${path} L 100,100 L 0,100 Z` */
  function FillPath(path: seq<Token>): seq<Token> {
    path + [L, Pair(Point(Num(100.0), Num(100.0))), L, Pair(Point(Num(0.0), Num(100.0))), Z]
  }

  /** The coordinate pairs of a token list, in order */
  function Vertices(ts: seq<Token>): seq<Point>
    decreases |ts|
  {
    if |ts| == 0 then []
    else (if ts[0].Pair? then [ts[0].p] else []) + Vertices(ts[1..])
  }

  lemma {:induction false} VerticesAppend(a: seq<Token>, b: seq<Token>)
    ensures Vertices(a + b) == Vertices(a) + Vertices(b)
    decreases |a|
  {
    if |a| == 0 {
      assert a + b == b;
    } else {
      var head := if a[0].Pair? then [a[0].p] else [];
      assert (a + b)[0] == a[0];
      assert (a + b)[1..] == a[1..] + b;
      VerticesAppend(a[1..], b);
      assert Vertices(a) == head + Vertices(a[1..]);
    }
  }

  /** Joining loses no point and adds none */
  lemma {:induction false} VerticesOfJoined(ps: seq<Point>)
    ensures Vertices(Joined(ps)) == ps
    decreases |ps|
  {
    if |ps| > 1 {
      var init := ps[..|ps| - 1];
      VerticesOfJoined(init);
      VerticesAppend(Joined(init), [L, Pair(ps[|ps| - 1])]);
      assert [L, Pair(ps[|ps| - 1])][1..] == [Pair(ps[|ps| - 1])];
      assert Vertices([Pair(ps[|ps| - 1])]) == [ps[|ps| - 1]] + Vertices([]);
      assert Vertices([L, Pair(ps[|ps| - 1])]) == [ps[|ps| - 1]];
      assert init + [ps[|ps| - 1]] == ps;
    }
  }

  /** A path starts with `M`, then alternates pair and `L`; reading its pairs
      back gives exactly one point per value, in input order. With no values
      the path is a bare `M` */
  lemma PathShape(values: seq<real>, sc: Scale)
    ensures var ts := CreatePath(values, sc);
            && ts[0] == M
            && |ts| == (if |values| == 0 then 1 else 2 * |values|)
            && (forall k :: 0 <= k < |values| ==> ts[2 * k + 1] == Pair(Points(values, sc)[k]))
            && (forall k :: 0 < k < |values| ==> ts[2 * k] == L)
            && Vertices(ts) == Points(values, sc)
  {
    var ps := Points(values, sc);
    VerticesAppend([M], Joined(ps));
    VerticesOfJoined(ps);
  }

  /** The fill outline is the path followed by the bottom-right and bottom-left
      corners, closed */
  lemma FillVertices(path: seq<Token>)
    ensures Vertices(FillPath(path)) == Vertices(path) + Corners
    ensures FillPath(path)[|FillPath(path)| - 1] == Z
  {
    VerticesAppend(path, [L, Pair(Point(Num(100.0), Num(100.0))), L, Pair(Point(Num(0.0), Num(100.0))), Z]);
  }

  /** `Math.ceil(n / k)`: show every this-many-th label to keep about `k` */
  function LabelStride(n: nat, k: nat): (s: nat)
    requires 0 < k
    ensures 0 < n ==> 0 < s
    ensures n <= s * k
    ensures s * k < n + k
  {
    (n + k - 1) / k
  }

  /** `data.filter((_, i) => i % showEveryNth === 0)`, as indices; a zero
      stride makes `i % 0` NaN and keeps nothing */
  function Labelled(n: nat, stride: nat): (r: seq<nat>)
    ensures forall t :: 0 <= t < |r| ==> r[t] < n && 0 < stride && r[t] % stride == 0
    ensures forall i :: 0 <= i < n && 0 < stride && i % stride == 0 ==> i in r
    ensures forall t, u :: 0 <= t < u < |r| ==> r[t] < r[u]
    decreases n
  {
    if n == 0 then []
    else Labelled(n - 1, stride) + (if 0 < stride && (n - 1) % stride == 0 then [n - 1] else [])
  }

  /** One more index adds a label exactly when it is a multiple of the stride,
      so `ceil(n / s)` indices below `n` are labelled */
  lemma {:induction false} LabelledCount(n: nat, s: nat)
    requires 0 < s
    ensures |Labelled(n, s)| == (n + s - 1) / s
    decreases n
  {
    if n == 0 {
      DivBetween(s - 1, s, 0);
    } else {
      LabelledCount(n - 1, s);
      CeilStep(n - 1, s);
    }
  }

  /** Label thinning for about `k` labels: index 0 is labelled whenever there
      is data, labels fall exactly on multiples of the stride, and there are
      at most `k` of them */
  lemma LabelThinning(n: nat, k: nat)
    requires 0 < k
    ensures var s := LabelStride(n, k);
            var r := Labelled(n, s);
            && (0 < n ==> |r| > 0 && r[0] == 0)
            && (forall i :: 0 <= i < n ==> (i in r <==> i % s == 0))
            && |r| <= k
  {
    var s := LabelStride(n, k);
    var r := Labelled(n, s);
    if 0 < n {
      assert 0 in r;
      LabelledCount(n, s);
      DivBelow(n + s - 1, s, k);
    }
  }
}

=== FILE: series.dfy ===
/**
 Reductions over a sequence of numbers, in the shape the dashboard writes them:
 `reduce((sum, val) => sum + val, 0)` is a left fold, and `Math.max(...xs)` /
 `Math.min(...xs)` give -Infinity / +Infinity on an empty argument list.
 */
module Series {
  import opened JsNumber

  /** `xs.reduce((sum, val) => sum + val, 0)` */
  function Sum(xs: seq<real>): real
    decreases |xs|
  {
    if |xs| == 0 then 0.0 else Sum(xs[..|xs| - 1]) + xs[|xs| - 1]
  }

  /** The largest element of a non-empty sequence */
  function Largest(xs: seq<real>): (m: real)
    requires 0 < |xs|
    ensures forall i :: 0 <= i < |xs| ==> xs[i] <= m
    ensures exists i :: 0 <= i < |xs| && xs[i] == m
    decreases |xs|
  {
    if |xs| == 1 then xs[0]
    else
      var rest := Largest(xs[1..]);
      assert forall i :: 1 <= i < |xs| ==> xs[i] == xs[1..][i - 1];
      if xs[0] >= rest then xs[0] else rest
  }

  /** The smallest element of a non-empty sequence */
  function Smallest(xs: seq<real>): (m: real)
    requires 0 < |xs|
    ensures forall i :: 0 <= i < |xs| ==> m <= xs[i]
    ensures exists i :: 0 <= i < |xs| && xs[i] == m
    decreases |xs|
  {
    if |xs| == 1 then xs[0]
    else
      var rest := Smallest(xs[1..]);
      assert forall i :: 1 <= i < |xs| ==> xs[i] == xs[1..][i - 1];
      if xs[0] <= rest then xs[0] else rest
  }

  /** `Math.max(...xs)` */
  function MaxOf(xs: seq<real>): (r: JsNum)
    ensures |xs| == 0 <==> r == NegInf
    ensures 0 < |xs| ==> r == Num(Largest(xs))
  {
    if |xs| == 0 then NegInf else Num(Largest(xs))
  }

  /** `Math.min(...xs)` */
  function MinOf(xs: seq<real>): (r: JsNum)
    ensures |xs| == 0 <==> r == PosInf
    ensures 0 < |xs| ==> r == Num(Smallest(xs))
  {
    if |xs| == 0 then PosInf else Num(Smallest(xs))
  }

  predicate NonNegative(xs: seq<real>) {
    forall i :: 0 <= i < |xs| ==> 0.0 <= xs[i]
  }

  predicate Constant(xs: seq<real>, c: real) {
    forall i :: 0 <= i < |xs| ==> xs[i] == c
  }

  lemma {:induction false} SumAppend(a: seq<real>, b: seq<real>)
    ensures Sum(a + b) == Sum(a) + Sum(b)
    decreases |b|
  {
    if |b| == 0 {
      assert a + b == a;
    } else {
      assert (a + b)[..|a + b| - 1] == a + b[..|b| - 1];
      SumAppend(a, b[..|b| - 1]);
    }
  }

  /** A prefix one element longer sums to the first element plus the rest's prefix */
  lemma SumPrefixCons(xs: seq<real>, i: nat)
    requires i < |xs|
    ensures Sum(xs[..i + 1]) == xs[0] + Sum(xs[1..][..i])
  {
    assert xs[..i + 1] == [xs[0]] + xs[1..][..i];
    SumAppend([xs[0]], xs[1..][..i]);
    assert Sum([xs[0]]) == Sum([xs[0]][..0]) + xs[0];
  }

  /** A sum of `n` copies of `c` is `n * c` */
  lemma {:induction false} SumConstant(xs: seq<real>, c: real)
    requires Constant(xs, c)
    ensures Sum(xs) == (|xs| as real) * c
    decreases |xs|
  {
    if |xs| > 0 {
      SumConstant(xs[..|xs| - 1], c);
    }
  }

  /** Every element bounds the sum from above by `n` copies of itself */
  lemma {:induction false} SumAtMost(xs: seq<real>, m: real)
    requires forall i :: 0 <= i < |xs| ==> xs[i] <= m
    ensures Sum(xs) <= (|xs| as real) * m
    decreases |xs|
  {
    if |xs| > 0 {
      SumAtMost(xs[..|xs| - 1], m);
    }
  }

  /** A sum of non-negative numbers is non-negative */
  lemma {:induction false} SumNonNegative(xs: seq<real>)
    requires NonNegative(xs)
    ensures 0.0 <= Sum(xs)
    decreases |xs|
  {
    if |xs| > 0 {
      SumNonNegative(xs[..|xs| - 1]);
    }
  }

  /** In a non-negative sequence, no element exceeds the sum */
  lemma {:induction false} ElementAtMostSum(xs: seq<real>, k: nat)
    requires NonNegative(xs)
    requires k < |xs|
    ensures xs[k] <= Sum(xs)
    decreases |xs|
  {
    var init := xs[..|xs| - 1];
    if k == |xs| - 1 {
      SumNonNegative(init);
    } else {
      ElementAtMostSum(init, k);
    }
  }

  /** Adding `c` to one element adds `c` to the sum */
  lemma {:induction false} SumUpdate(xs: seq<real>, k: nat, c: real)
    requires k < |xs|
    ensures Sum(xs[k := xs[k] + c]) == Sum(xs) + c
    decreases |xs|
  {
    var ys := xs[k := xs[k] + c];
    if k < |xs| - 1 {
      assert ys[..|ys| - 1] == xs[..|xs| - 1][k := xs[k] + c];
      SumUpdate(xs[..|xs| - 1], k, c);
    } else {
      assert ys[..|ys| - 1] == xs[..|xs| - 1];
    }
  }
}

=== FILE: share.dfy ===
/**
 `(part / whole) * 100`: the percentage a bar height (part of the largest
 reading) and a donut segment (part of the total) are both computed as.
 */
module Share {
  import opened JsNumber
  import opened Arith

  /** `(part / whole) * 100` */
  function Percent(part: real, whole: JsNum): JsNum {
    Mul(Div(Num(part), whole), Num(100.0))
  }

  /** The value of the part a finite percentage stands for: the inverse of `Percent` */
  function PartOf(pct: real, whole: real): real {
    pct / 100.0 * whole
  }

  /** Against a finite non-zero whole the percentage is finite and gives the part back */
  lemma PercentFinite(part: real, whole: real)
    requires whole != 0.0
    ensures Percent(part, Num(whole)) == Num(part / whole * 100.0)
    ensures PartOf(Percent(part, Num(whole)).v, whole) == part
  {
    DivCancel(part, whole);
  }

  /** A part between zero and a positive whole is between 0% and 100%, and the
      whole itself is exactly 100% */
  lemma PercentRange(part: real, whole: real)
    requires 0.0 < whole && 0.0 <= part <= whole
    ensures Percent(part, Num(whole)).Num?
    ensures 0.0 <= Percent(part, Num(whole)).v <= 100.0
    ensures part == whole ==> Percent(part, Num(whole)) == Num(100.0)
  {
    DivAtMost(0.0, part, whole);
    DivAtMost(part, whole, whole);
    DivSelf(whole);
  }

  /** Against a positive whole, percentages are ordered as their parts are */
  lemma PercentMonotone(a: real, b: real, whole: real)
    requires 0.0 < whole
    ensures Percent(a, Num(whole)).v <= Percent(b, Num(whole)).v <==> a <= b
  {
    if a <= b {
      DivAtMost(a, b, whole);
    } else {
      DivStrict(b, a, whole);
    }
  }

  /** Nothing out of nothing: `0 / 0` makes the percentage NaN */
  lemma PercentOfNothing()
    ensures Percent(0.0, Num(0.0)).NaN?
  {
  }
}

=== FILE: statistics.dfy ===
/**
 `calculateStats`: total, average and peak of a batch's consumption values,
 a trend read off the means of the older and the recent half, and the savings
 estimate. The batch is the `consumption` column (`Energy.Consumptions`); the
 function accepts any length, including the empty and one-element batches
 whose divisions by zero JavaScript turns into NaN.
 */
module Statistics {
  import opened JsNumber
  import opened Series

  datatype Trend = Up | Down | Stable

  datatype Stats = Stats(total: real, avg: JsNum, peak: JsNum, trend: Trend, savings: JsNum)

  /** `xs.reduce(sum) / xs.length` */
  function Mean(xs: seq<real>): (m: JsNum)
    ensures 0 < |xs| ==> m == Num(Sum(xs) / (|xs| as real))
    ensures |xs| == 0 ==> m.NaN?
  {
    Div(Num(Sum(xs)), Num(|xs| as real))
  }

  /** `Math.floor(consumptions.length / 2)` */
  function HalfPoint(n: nat): (h: nat)
    ensures h <= n && n - h >= h && n - h <= h + 1
  {
    n / 2
  }

  /** Mean of the second (more recent) half, from the half point on */
  function RecentAvg(xs: seq<real>): JsNum {
    Mean(xs[HalfPoint(|xs|)..])
  }

  /** Mean of the first (older) half, before the half point */
  function OlderAvg(xs: seq<real>): JsNum {
    Mean(xs[..HalfPoint(|xs|)])
  }

  /** The `if / else if` choosing `trend` in `calculateStats`: up beats down, stable is the default */
  function Classify(recent: JsNum, older: JsNum): Trend {
    if Greater(recent, Mul(older, Num(1.1))) then Up
    else if Less(recent, Mul(older, Num(0.9))) then Down
    else Stable
  }

  /** `calculateStats(data)` over the batch's consumption values */
  function CalculateStats(xs: seq<real>): (st: Stats)
    ensures st.total == Sum(xs)
    ensures 0 < |xs| ==> st.avg == Num(st.total / (|xs| as real))
    ensures 0 < |xs| ==> (
              && st.peak.Num?
              && (forall i :: 0 <= i < |xs| ==> xs[i] <= st.peak.v)
              && (exists i :: 0 <= i < |xs| && xs[i] == st.peak.v))
    ensures |xs| == 0 ==> st.avg.NaN? && st.peak == NegInf && st.trend == Stable && st.savings.NaN?
    ensures 0 < |xs| ==> st.savings == Num(st.avg.v * 0.15)
  {
    var avg := Mean(xs);
    Stats(Sum(xs), avg, MaxOf(xs), Classify(RecentAvg(xs), OlderAvg(xs)), Mul(avg, Num(0.15)))
  }

  /** The average never exceeds the peak */
  lemma AvgAtMostPeak(xs: seq<real>)
    requires 0 < |xs|
    ensures CalculateStats(xs).avg.v <= CalculateStats(xs).peak.v
  {
    var m := Largest(xs);
    SumAtMost(xs, m);
    var n := |xs| as real;
    assert Sum(xs) / n <= m;
  }

  /** For two or more readings both half means are finite and the trend is
      decided by the two thresholds, "up" taking precedence */
  lemma TrendRule(xs: seq<real>)
    requires 2 <= |xs|
    ensures var h := HalfPoint(|xs|);
            var recent := Sum(xs[h..]) / ((|xs| - h) as real);
            var older := Sum(xs[..h]) / (h as real);
            var t := CalculateStats(xs).trend;
            && RecentAvg(xs) == Num(recent) && OlderAvg(xs) == Num(older)
            && (t == Up <==> recent > older * 1.1)
            && (t == Down <==> !(recent > older * 1.1) && recent < older * 0.9)
  {
  }

  /** For non-negative consumption the "down" test is never shadowed by "up":
      the trend is down exactly when the recent mean is below 90% of the older */
  lemma DownRuleNonNegative(xs: seq<real>)
    requires 2 <= |xs|
    requires NonNegative(xs)
    ensures var h := HalfPoint(|xs|);
            var recent := Sum(xs[h..]) / ((|xs| - h) as real);
            var older := Sum(xs[..h]) / (h as real);
            CalculateStats(xs).trend == Down <==> recent < older * 0.9
  {
    var h := HalfPoint(|xs|);
    assert NonNegative(xs[..h]);
    SumNonNegative(xs[..h]);
    TrendRule(xs);
  }

  /** A single reading leaves the older half empty: its mean is 0/0, both
      comparisons fail and the trend stays stable */
  lemma SingleReadingIsStable(x: real)
    ensures OlderAvg([x]).NaN?
    ensures RecentAvg([x]) == Num(x)
    ensures CalculateStats([x]).trend == Stable
  {
    assert [x][..0] == [];
    assert [x][0..] == [x];
    NaNIsUnordered(Num(x));
  }

  /** The mean of a non-empty constant batch is that constant */
  lemma MeanOfConstant(xs: seq<real>, c: real)
    requires 0 < |xs| && Constant(xs, c)
    ensures Mean(xs) == Num(c)
  {
    SumConstant(xs, c);
    var n := |xs| as real;
    assert n * c / n == c;
  }

  /** A constant non-negative batch is stable */
  lemma ConstantIsStable(xs: seq<real>, c: real)
    requires 0 < |xs|
    requires Constant(xs, c) && 0.0 <= c
    ensures CalculateStats(xs).trend == Stable
  {
    var h := HalfPoint(|xs|);
    if h == 0 {
      assert OlderAvg(xs).NaN?;
    } else {
      assert Constant(xs[h..], c) && Constant(xs[..h], c);
      MeanOfConstant(xs[h..], c);
      MeanOfConstant(xs[..h], c);
    }
  }

  /** The thresholds scale a negative older mean the wrong way: a constant
      negative batch of two or more readings reads as "up" */
  lemma ConstantNegativeIsUp(xs: seq<real>, c: real)
    requires 2 <= |xs|
    requires Constant(xs, c) && c < 0.0
    ensures CalculateStats(xs).trend == Up
  {
    var h := HalfPoint(|xs|);
    assert Constant(xs[h..], c) && Constant(xs[..h], c);
    MeanOfConstant(xs[h..], c);
    MeanOfConstant(xs[..h], c);
  }

  /** Older half all 100, recent half all 130: a 30% rise reads as "up" */
  lemma ThirtyPercentRiseIsUp()
    ensures CalculateStats([100.0, 100.0, 100.0, 130.0, 130.0, 130.0]).trend == Up
  {
    var xs := [100.0, 100.0, 100.0, 130.0, 130.0, 130.0];
    assert xs[..3] == [100.0, 100.0, 100.0];
    assert xs[3..] == [130.0, 130.0, 130.0];
    MeanOfConstant(xs[..3], 100.0);
    MeanOfConstant(xs[3..], 130.0);
  }
}

=== FILE: suggestions.dfy ===
/**
 `generateSuggestions`: a fixed catalogue of five recommendations. It takes no
 input and draws nothing, so every call returns the same list.
 */
module Suggestions {
  import opened Decimal

  datatype SuggestionType = Warning | Tip | Alert

  datatype Suggestion = Suggestion(
    id: string,
    kind: SuggestionType,
    title: string,
    description: string,
    potentialSavings: real)

  const Suggestion1: Suggestion := Suggestion(
    "sug-1", Warning, "High Peak Usage Detected",
    "Your energy consumption peaks between 2-4 PM. Consider load shifting to off-peak hours.",
    23.5)

  const Suggestion2: Suggestion := Suggestion(
    "sug-2", Tip, "HVAC Optimization",
    "HVAC systems are running at high capacity. Adjusting temperature by 2 degrees could save energy.",
    15.2)

  const Suggestion3: Suggestion := Suggestion(
    "sug-3", Alert, "Unusual After-Hours Activity",
    "Significant energy usage detected after 10 PM in Building B. Investigate potential wastage.",
    8.7)

  const Suggestion4: Suggestion := Suggestion(
    "sug-4", Tip, "Lighting Efficiency",
    "Switch to LED lighting in common areas for up to 30% energy savings.",
    12.4)

  const Suggestion5: Suggestion := Suggestion(
    "sug-5", Warning, "Predictive Maintenance Required",
    "Equipment in Building A showing inefficient patterns. Schedule maintenance to prevent increased consumption.",
    18.9)

  /** `generateSuggestions()` */
  function GenerateSuggestions(): (r: seq<Suggestion>)
    ensures |r| == 5
    ensures forall i :: 0 <= i < |r| ==> 0.0 < r[i].potentialSavings < 100.0
  {
    [Suggestion1, Suggestion2, Suggestion3, Suggestion4, Suggestion5]
  }

  /** Suggestion `k` (counting from 1) has id `sug-k` */
  lemma CatalogueIds()
    ensures var r := GenerateSuggestions();
            forall i :: 0 <= i < |r| ==> r[i].id == "sug-" + Show(i + 1)
  {
    var r := GenerateSuggestions();
    forall i | 0 <= i < |r|
      ensures r[i].id == "sug-" + Show(i + 1)
    {
      assert Show(i + 1) == [DigitChar(i + 1)];
    }
  }

  /** Catalogue ids are distinct, and the types used are exactly warning, tip and alert */
  lemma CatalogueShape()
    ensures var r := GenerateSuggestions();
            && (forall i, j :: 0 <= i < |r| && 0 <= j < |r| && r[i].id == r[j].id ==> i == j)
            && (set i | 0 <= i < |r| :: r[i].kind) == {Warning, Tip, Alert}
  {
    var r := GenerateSuggestions();
    CatalogueIds();
    forall i, j | 0 <= i < |r| && 0 <= j < |r| && r[i].id == r[j].id
      ensures i == j
    {
      PrefixedShowInjective("sug-", i + 1, j + 1);
    }
    assert r[0].kind == Warning && r[1].kind == Tip && r[2].kind == Alert;
  }
}
